=== FILE: README.md ===
# task-manager: a Dafny model of the REST core

The model covers the core of task-manager, an Express and Mongoose REST API. Users sign up, log in with bearer tokens, keep a
profile and an avatar, and own tasks. They can list their tasks with a filter, a sort and
offset pagination.

The model is functional. The database is a `Store` value: the user and
task collections in natural (insertion) order, plus a counter for fresh ids.
Every route handler is a pure function from a store and a request to an
`Outcome`, which holds the new store and either `Ok(status, body)` or
`Err(status, failure)`.

Modules, following the program's structure:

| file | module | models |
|---|---|---|
| `wrappers.dfy` | `Wrappers` | `Option`, `Result`, the reply type and the failure kinds |
| `seqs.dfy` | `Seqs` | order-preserving filter, first match, removal at an index |
| `text.dfy` | `Text` | `String.prototype.trim`, ASCII `toLowerCase`, `split(':')`, binary string order |
| `image.dfy` | `ImageUtils` | `calculateImageDimentions` |
| `records.dfy` | `Records` | the `User` and `Task` documents, the store, lookups, authentication, the store invariant |
| `user_model.dfy` | `UserModel` | the user schema: setters, validators, the pre-save hash, `toJSON`, `generateAuthToken`, `findByCredentials`, the pre-remove cascade |
| `task_query.dfy` | `TaskQuery` | the match, sort, skip and limit of `GET /tasks` |
| `task_router.dfy` | `TaskRouter` | the five task routes |
| `user_router.dfy` | `UserRouter` | the twelve user routes |

Collaborators the model cannot see become parameters:
- bcrypt's `hash` and `compare` and validator's `isEmail` are the fields of `UserModel.Services`;
- the JWT string a route issues is a `token` argument;
- the image that sharp produces from the target dimensions is a `render` function;
- the task schema's validation is a `taskValid` predicate;
- the clock is a `now` argument.

The authentication middleware is not part of this model. Every protected
route instead requires `Authenticated(s, caller, token)`: the caller's document exists and still
lists the presented token, which is what the middleware establishes.

`Records.Valid` states what the database guarantees:
- unique `_id`s below the id counter;
- unique emails, from the schema's unique index;
- every task's owner exists, which the cascade on user removal keeps.

Every route that writes comes with a lemma showing it preserves `Valid`.

Where the code and its written description differ, the model follows the code:
- `findByCredentials` throws two messages that differ in capitalisation: "unable to login" for an unknown email and "Unable to login" for a wrong password. They are not one shared message.
- A `completed` query parameter that is the empty string applies no filter, because it is falsy. Only a non-empty value other than "true" selects the incomplete tasks.
- `PATCH /tasks/:id` checks the JSON content type before the whitelist. `PATCH /users/me` computes the keys first but also checks the content type first. Both routes reply with `sendStatus(400)` when the body is not JSON, so the body is the status text "Bad Request".
- `PATCH /tasks/:id` does not await `task.save()`. It replies 200 with the assigned document even when that save fails.

## Model

| member | source | states |
|---|---|---|
| Seqs.Filter | src/routers/user.js:35-37 | the kept elements are exactly the input's elements that pass the test, and the result is no longer than the input |
| Seqs.FilterCounts | src/routers/user.js:35-37 | every occurrence of a passing element survives and no occurrence of a failing one does |
| Seqs.FilterConcat | src/routers/user.js:35-37 | filtering keeps the surviving elements in their original relative order |
| Seqs.FilterIdempotent | src/routers/user.js:35-37 | filtering the same token out twice is the same as once |
| Seqs.FilterPairwise | src/models/user.js:111-117 | removing documents keeps every pairwise-distinct key distinct (ids and emails after the cascade) |
| Seqs.FilterShrinks | src/routers/user.js:35-37 | dropping a token that is present makes the list strictly shorter |
| Seqs.FirstIndex | src/models/user.js:86 | the position of the first element that satisfies the query, and none exactly when no element does |
| Seqs.RemoveAt | src/routers/task.js:109 | one element shorter; the elements before the position keep their place and the ones after it move down by one |
| Seqs.RemoveAtMembers | src/routers/task.js:109 | a value remains after the removal exactly when it occurs at some other position |
| Text.Trim | src/models/user.js:10-14 | the result has no surrounding whitespace and is the input with only leading and trailing whitespace removed; an already trimmed string is unchanged |
| Text.TrimIdempotent | src/models/user.js:10-14 | trimming twice is trimming once |
| Text.TrimNoSpace | src/models/user.js:10-14 | a string without whitespace is its own trim |
| Text.ToLower | src/models/user.js:31 | every character is lowered independently and the length is kept |
| Text.ToLowerIdempotent | src/models/user.js:31 | lowering twice is lowering once |
| Text.TrimLowerCommute | src/models/user.js:30-31 | trimming then lowering equals lowering then trimming, so the order of the two email setters does not matter |
| Text.Utf16Length | src/models/user.js:19 | the length in UTF-16 code units: between the number of characters and twice it, equal to it without astral characters and twice it with only astral ones |
| Text.Split | src/routers/task.js:36 | at least one piece, and no piece contains the separator |
| Text.JoinSplit | src/routers/task.js:36 | joining the pieces with the separator gives the original string back |
| Text.SplitJoin | src/routers/task.js:36 | splitting a join of separator-free pieces gives the pieces back |
| Text.LexLeTotal | src/routers/task.js:37 | any two descriptions are comparable under the binary string order |
| Text.LexLeTransitive | src/routers/task.js:37 | the binary string order is transitive |
| Text.LexLeAntisymmetric | src/routers/task.js:37 | two strings that are each at most the other are equal |
| ImageUtils.CalculateImageDimensions | src/helper/utils.js:1-14 | the longer side (height on a tie) becomes exactly the maximum, and the other side is the truncated proportional size |
| ImageUtils.DimensionsBounded | src/helper/utils.js:4-10 | neither side exceeds the maximum or is negative, one side equals the maximum, and the longer input side is not the shorter output side |
| ImageUtils.SquareIsMaxSquare | src/helper/utils.js:7-9 | a square image becomes a maximum-sized square |
| ImageUtils.TransposeSymmetric | src/helper/utils.js:4-10 | swapping width and height of a non-square image swaps the result |
| ImageUtils.AvatarExamples | src/routers/user.js:141 | 1000×500 becomes 350×175 and 500×1000 becomes 175×350 |
| ImageUtils.ExactTruncationExample | src/helper/utils.js:6 | 1000×700 becomes 350×245 with exact truncation |
| ImageUtils.Resizable | src/routers/user.js:141-142 | an upload can be resized when both sides computed for a maximum of 350 are positive |
| ImageUtils.ResizableIff | src/helper/utils.js:4-10 | both computed sides are positive exactly when 350 times the shorter side reaches the longer side |
| ImageUtils.ThinUploadExamples | src/helper/utils.js:6 | 1000×2 scales to 350×0 and cannot be resized, while 1000×3 can |
| Records.FindUser | src/routers/user.js:80 | finds a user with exactly that id, and fails exactly when no user has it |
| Records.FindOwnedTask | src/routers/task.js:62 | finds a task with that id and that owner, and fails exactly when the caller owns no such task |
| Records.Authenticated | src/routers/user.js:33-37 | the `req.user` and `req.token` a protected route receives: a user with that id exists and still lists the presented token |
| Records.Valid | src/models/user.js:26-29 | ids are unique and below the counter, emails are unique, task ids are unique and below the counter, and every task's owner exists |
| Records.ReplaceUserKeepsValid | src/models/user.js:26-29 | replacing a document with one that keeps its id and has an email no other user has keeps the store valid |
| Records.ReplaceTaskKeepsValid | src/routers/task.js:94-96 | replacing a task with one that keeps its id and owner keeps the store valid |
| Records.RemoveTaskKeepsValid | src/routers/task.js:109 | removing one task keeps the store valid |
| Records.AppendUserKeepsValid | src/routers/user.js:12-15 | appending a user with the fresh id and an email nobody has keeps the store valid, with the counter advanced |
| Records.AppendTaskKeepsValid | src/routers/task.js:7-10 | appending a task with the fresh id and an existing owner keeps the store valid, with the counter advanced |
| UserModel.NormalizeEmail | src/models/user.js:26-31 | a stored email is the input lower-cased and trimmed, so it has no surrounding whitespace and is already lower case |
| UserModel.NormalizeEmailIdempotent | src/models/user.js:30-31 | normalising a normalised email changes nothing, so a stored email is its own query key |
| UserModel.ValidPassword | src/models/user.js:15-25 | a password is accepted when it has at least seven UTF-16 code units and is not the literal "password" |
| UserModel.PasswordLengthInUnits | src/models/user.js:19 | four emoji (eight code units) meet the minimum length while the six-letter "secret" does not |
| UserModel.Validates | src/models/user.js:9-46 | a document validates when name and email are non-empty, the email passes `isEmail`, a password being set is valid, and the age is not negative |
| UserModel.PasswordModified | src/models/user.js:104 | the password counts as modified on a new document or when it differs from the persisted one |
| UserModel.Assign | src/routers/user.js:110 | succeeds exactly when every listed value casts; a listed path gets the setter's value; an unlisted path and every other field are unchanged |
| UserModel.Save | src/models/user.js:100-108 | succeeds exactly when the document validates; only the password may change; it is hashed exactly when modified, and otherwise the stored digest is kept |
| UserModel.SaveKeepsDigest | src/models/user.js:103-105 | a save that does not touch the password leaves the digest as it was, so a digest is never hashed again |
| UserModel.ForbiddenPasswordRejected | src/models/user.js:20-24 | the literal "password" is refused whenever the password is being set |
| UserModel.NewUser | src/routers/user.js:12 | a new document has the fresh id, the body's name, email, password and age through the setters, no tokens, no avatar, the default age and empty strings for missing paths |
| UserModel.MissingFieldRejected | src/models/user.js:10-29 | a sign-up body without a name, email or password never saves |
| UserModel.ToJson | src/models/user.js:66-73 | the public profile holds exactly the id, name, age, email and timestamps |
| UserModel.ToJsonExposesExactlyPublicFields | src/models/user.js:66-73 | two documents have the same public profile exactly when they agree on id, name, age, email and timestamps |
| UserModel.ToJsonHidesSecrets | src/models/user.js:66-73 | the profile does not depend on the password digest, the tokens or the avatar |
| UserModel.GenerateAuthToken | src/models/user.js:75-83 | the new token is appended after the existing ones, which keep their order; nothing else changes |
| UserModel.FindByEmail | src/models/user.js:86 | the first user whose email equals the query email after the schema's setters (Mongoose casts query values through them), and none exactly when no user has it |
| UserModel.FindByEmailNormal | src/models/user.js:86 | looking up an email and looking up its normalised form find the same user |
| UserModel.FindByCredentials | src/models/user.js:85-97 | success names a user with the normalised email whose digest matches; "unable to login" exactly when no user has that email; otherwise "Unable to login" |
| UserModel.FindByCredentialsNormal | src/models/user.js:85-97 | the credentials check gives the same answer for an email and for its normalised form |
| UserModel.CredentialsIff | src/models/user.js:85-97 | with unique emails, login succeeds exactly when some user has the normalised email and a matching digest |
| UserModel.RemoveUser | src/models/user.js:110-117 | removes exactly the user with that id and exactly the tasks it owns; everything else remains |
| UserModel.RemoveUserKeepsOrder | src/models/user.js:110-117 | what remains of the users and tasks keeps its natural order: for any cut, the survivors before it precede those after it |
| UserModel.RemoveUserKeepsValid | src/models/user.js:110-117 | removing a user together with its tasks keeps the store valid: ids and emails stay unique and no task is left without an owner |
| TaskQuery.BuildMatch | src/routers/task.js:31-33 | no filter exactly when `completed` is absent or empty; true exactly for "true"; false for any other non-empty value |
| TaskQuery.BuildSort | src/routers/task.js:35-38 | no sort exactly when `sortBy` is absent or empty; the path is the text before the first colon; descending exactly when the second piece is "desc" |
| TaskQuery.BuildSortReadsText | src/routers/task.js:35-38 | the path is the raw text up to its first colon (all of it when there is none), and the sort is descending exactly when the text after the path is ":desc" or begins with ":desc:" |
| TaskQuery.KeyOf | src/routers/task.js:37 | the sort key of a task at a path: its number for the id, owner and timestamps, its text for the description, its flag for completed, and missing for any other path |
| TaskQuery.KeyLe | src/routers/task.js:49 | keys of different kinds order by kind (missing, numbers, strings, booleans); within a kind numbers and booleans order by value and strings by code points |
| TaskQuery.KeyLeTotal | src/routers/task.js:49 | any two sort keys are comparable |
| TaskQuery.KeyLeTransitive | src/routers/task.js:49 | the key order is transitive across the kinds of value |
| TaskQuery.BeforeTotal | src/routers/task.js:37 | in either direction, any two tasks are comparable |
| TaskQuery.BeforeTransitive | src/routers/task.js:37 | in either direction, the task order is transitive |
| TaskQuery.Insert | src/routers/task.js:49 | inserting into a sorted list keeps it sorted and adds exactly that task |
| TaskQuery.Sort | src/routers/task.js:49 | the result is sorted on the requested path and direction and is a permutation of the input |
| TaskQuery.Selected | src/routers/task.js:43-46 | exactly the owner's tasks that satisfy the match |
| TaskQuery.Arrange | src/routers/task.js:49 | a permutation, sorted whenever a sort was requested |
| TaskQuery.Page | src/routers/task.js:47-48 | a contiguous window that starts at `skip` (capped at the end) and holds at most `limit` tasks (0 meaning no limit); it reaches the end unless it is full |
| TaskQuery.ArrangeSameMembers | src/routers/task.js:49 | sorting neither adds nor loses a task |
| TaskQuery.PageIsSlice | src/routers/task.js:47-48 | the page is the slice of the arranged list from the offset |
| TaskQuery.CandidatesAreOwnedMatches | src/routers/task.js:43-46 | before paging, the candidates are exactly the caller's tasks that satisfy the match |
| TaskQuery.ListTasks | src/routers/task.js:23-49 | the reply of `GET /tasks`: the caller's matching tasks, arranged, then skipped and limited |
| TaskQuery.ListTasksIsWindow | src/routers/task.js:26-52 | the reply is a window of the caller's matching tasks, no longer than the limit, and reaches the end unless full; no other user's task appears |
| TaskQuery.ListTasksSorted | src/routers/task.js:35-49 | with a sort, the reply is in sort order |
| TaskQuery.SliceSorted | src/routers/task.js:47-49 | any window of a sorted list is sorted |
| TaskQuery.CompletedFilter | src/tests/tasks.test.js:148-174 | completed=true gives only completed tasks; another non-empty value gives only incomplete ones; no value leaves the completion status unfiltered |
| TaskQuery.FixtureSelected | src/tests/tasks.test.js:236-247 | with three tasks of user one and one of user two, user one's query selects their three tasks in natural order |
| TaskQuery.FixturePage | src/tests/tasks.test.js:236-247 | with three tasks of user one and one of user two, limit=2&skip=1 gives user one's second and third tasks |
| TaskRouter.NewTask | src/routers/task.js:7-10 | casts exactly when the body's task paths have the right types; the owner is always the caller; `completed` defaults to false |
| TaskRouter.CreateTask | src/routers/task.js:6-19 | 201 exactly when the body casts and the document built from it validates; the reply is that document, owned by the caller and appended to the store; otherwise 400 and the store unchanged |
| TaskRouter.ListRoute | src/routers/task.js:26-56 | 200 with exactly the query's page of the caller's tasks, so only the caller's tasks; the store is unchanged |
| TaskRouter.GetTask | src/routers/task.js:58-72 | 200 exactly when the caller owns a task with that id, otherwise 404; read-only |
| TaskRouter.AssignTask | src/routers/task.js:94 | each listed path that casts gets the body's value; every other field is unchanged |
| TaskRouter.PatchTask | src/routers/task.js:74-104 | 400 without JSON, 400 "Invalid updates!" for an unlisted key, 404 "task not found" for a task the caller does not own, else 200 with the caller's task after assigning the body, which replaces the stored task when it casts and validates; no other task, user or id changes |
| TaskRouter.EmptyPatchChangesNothing | src/routers/task.js:94-98 | an empty patch leaves the store as it was and returns the stored task |
| TaskRouter.DeleteTask | src/routers/task.js:106-119 | 200 exactly when the caller owns the task, and exactly one occurrence of it leaves the store; otherwise 404 with the status text "Not Found" and nothing changes |
| TaskRouter.DeleteRemovesExactlyOne | src/routers/task.js:109 | with unique ids, a task remains after deletion exactly when it is not the caller's task with that id |
| TaskRouter.NonOwnerGetsNotFound | src/tests/tasks.test.js:40-49 | a user who does not own the task gets 404 from read, update and delete, and the store is untouched |
| TaskRouter.CreateKeepsValid | src/routers/task.js:7-10 | creating a task keeps the store valid |
| TaskRouter.PatchKeepsValid | src/routers/task.js:94-96 | updating a task keeps the store valid |
| TaskRouter.DeleteKeepsValid | src/routers/task.js:109 | deleting a task keeps the store valid |
| UserRouter.Signup | src/routers/user.js:10-20 | 201 with one new user whose only token is the issued token, whose digest hashes a valid trimmed password, and whose email is normalised, valid and not taken; the document is the one built from the body with the password digest and that token; otherwise 400 and the store unchanged |
| UserRouter.SignupAccepted | src/routers/user.js:12-13 | a sign-up is accepted when the body casts, the document built from it saves, and no user has the saved email |
| UserRouter.ValidSignupBody | src/models/user.js:9-46 | a sign-up body the schema accepts: every path casts, the trimmed name is not blank, the normalised email is not blank, passes `isEmail` and is not taken, the trimmed password is valid, and a given age is not negative |
| UserRouter.AcceptedIffValidBody | src/models/user.js:9-46 | the document built from a body saves with an untaken email exactly when the body is valid |
| UserRouter.SignupSucceedsOnValidBody | src/routers/user.js:10-20 | a sign-up replies 201 exactly when its body is valid, stated over the body alone |
| UserRouter.SignupSucceedsIff | src/routers/user.js:10-20 | a sign-up replies 201 exactly when the body casts, the document built from it saves (passes the validators) and no user has its email |
| UserRouter.AcceptedSignupSucceeds | src/routers/user.js:12-16 | an accepted sign-up document is saved and answered with 201 |
| UserRouter.SignupAuthenticates | src/routers/user.js:15-16 | in a valid store, the token a successful sign-up returns authenticates the new user |
| UserRouter.SignupAppends | src/routers/user.js:12-15 | a successful sign-up appends one document with the fresh id and an email nobody had, and advances the id counter |
| UserRouter.SignupRejectsTakenEmail | src/models/user.js:28 | a sign-up with an email some user already has fails |
| UserRouter.SignupKeepsValid | src/routers/user.js:12-15 | signing up keeps the store valid |
| UserRouter.Login | src/routers/user.js:22-31 | 200 when some user with the normalised email accepts the password, and the new token goes after that user's tokens; otherwise 400 with one of the two `findByCredentials` messages and the store unchanged |
| UserRouter.LoginIff | src/routers/user.js:22-31 | with a valid store, login succeeds exactly when some user has the normalised email and accepts the password, and the new token then authenticates that user |
| UserRouter.LoginNormalisesEmail | src/models/user.js:86 | logging in with an email and with its normalised form has the same outcome |
| UserRouter.NewTokenAuthenticates | src/models/user.js:79 | with unique ids, a token appended to a user's list authenticates that user |
| UserRouter.SecondLoginTokenAtIndexOne | src/tests/user.test.js:32-43 | after sign-up, a login stores its token at index 1 after the sign-up token |
| UserRouter.LoginKeepsValid | src/routers/user.js:26 | logging in keeps the store valid |
| UserRouter.SameAccountKeepsValid | src/models/user.js:26-29 | a document with its id and email unchanged keeps the store valid |
| UserRouter.Logout | src/routers/user.js:33-48 | the caller's token list becomes the old list with the presented token filtered out, so it no longer authenticates; the other tokens remain in order and nothing else changes |
| UserRouter.LogoutKeepsOtherSessions | src/routers/user.js:35-37 | every other (user, token) pair authenticates after logout exactly when it did before |
| UserRouter.LogoutKeepsValid | src/routers/user.js:39-40 | logging out keeps the store valid |
| UserRouter.LogoutAll | src/routers/user.js:50-61 | afterwards no token authenticates the caller, and nothing but the caller's token list changes |
| UserRouter.LogoutAllKeepsValid | src/routers/user.js:53-55 | logging out everywhere keeps the store valid |
| UserRouter.Me | src/routers/user.js:63-66 | 200 with the caller's own profile |
| UserRouter.ListUsers | src/routers/user.js:68-75 | 200 with every user's public profile in natural order |
| UserRouter.ListUsersAgreesWithGetUser | src/routers/user.js:68-90 | with unique ids, the profile at each position of `GET /users` is what `GET /users/:id` sends for that user |
| UserRouter.ListUsersDistinct | src/routers/user.js:68-75 | with unique ids, each stored user appears in `GET /users` exactly once |
| UserRouter.GetUser | src/routers/user.js:77-90 | 200 with the public profile of the user with that id exactly when one exists, otherwise 404; read-only |
| UserRouter.GetUserSelfIsMe | src/routers/user.js:63-90 | asking for one's own id gives the same reply as `GET /users/me` |
| UserRouter.PatchMe | src/routers/user.js:92-119 | 400 without JSON, 400 "invalid updates!" for an unlisted key, 400 when a value fails to cast, validate or stay unique; 200 exactly when the body is JSON and whitelisted, casts, validates and keeps the email unique, and then with the listed paths set through the setters, the password re-hashed only when it changed, and the rest kept |
| UserRouter.PatchMeKeepsValid | src/routers/user.js:110-112 | updating the profile keeps the store valid |
| UserRouter.DeleteMe | src/routers/user.js:121-131 | 200 with the removed document's public profile; the store is the one the pre-remove cascade leaves: the caller's document and all the caller's tasks are gone and nothing else is; no token authenticates the caller afterwards |
| UserRouter.DeleteMeKeepsValid | src/models/user.js:111-117 | deleting the account keeps the store valid; no task is left without an owner |
| UserRouter.UploadAvatar | src/routers/user.js:136-148 | the caller's avatar becomes the image rendered at the dimensions computed for a maximum of 350, which are positive, no larger than 350 and have one side exactly 350; nothing else changes |
| UserRouter.DeleteAvatar | src/routers/user.js:155-164 | only the caller's avatar is cleared |
| UserRouter.GetAvatar | src/routers/user.js:166-180 | 200 with that user's stored avatar exactly when the user exists and has one, otherwise 404 |
| UserRouter.AvatarRoundTrip | src/routers/user.js:144-176 | reading back an uploaded avatar gives exactly the stored image; after removal the read is 404 |
| UserRouter.AvatarKeepsValid | src/routers/user.js:144-159 | the avatar routes keep the store valid |

## Left out

- HTTP plumbing is not modelled: routing, unmatched paths and the Express error handlers. A request to an unrouted path such as `PATCH /users/:id` gets Express's 404, and so does the multer error handler of the avatar route.
- The catch branches that reply 500 (or, in `GET /tasks/:id`, reply nothing) are not modelled. They fire when the database fails, when an id fails to cast, or when MongoDB rejects a query (see the `TaskRouter.ListRoute` line below). The model has no database failure, and its ids are natural numbers, so a malformed id cannot occur. This also excludes the 400 that a malformed task id produces in `PATCH /tasks/:id`.
- The authentication middleware is not part of this model. Its outcome is the `Authenticated` precondition, and its 401 replies are not modelled.
- The JWT signing, bcrypt, validator's `isEmail`, sharp, multer and the welcome and cancellation emails are external libraries. They appear as parameters, or are omitted when they have no effect on the store or the reply, as with the emails.
- `src/routers/user.js:6` imports `upload` from the helper module, but the module exports only `calculateImageDimentions` (`src/helper/utils.js:16-18`). As written, `upload.single` would fail when the router loads. `UserRouter.UploadAvatar` models the route as intended: one uploaded image with positive dimensions.
- ImageUtils.CalculateImageDimensions: computes the truncation exactly, while the source applies `parseInt` to a floating-point product, which reads the product's decimal string. For ordinary ratios the two can differ by one: for 1000×700 at 350 the double `350 * 0.7` is just below 245, so the source gives 244 and the model gives 245. When the product is below 1e-6 its string is in exponent notation and `parseInt` keeps only the leading digits, so the difference has no bound: for 1000000000×1 at 350 the product is 3.5e-7, the source gives 3 and the model gives 0.
- ImageUtils.CalculateImageDimensions: requires positive width and height. In the source a zero side next to a positive one gives a zero output side (0×5 gives 0×350 and 5×0 gives 350×0), and 0×0 gives NaN through `parseInt(NaN)`. A decoded image never has a zero side.
- The task schema (`src/models/task.js`) is not part of this model. Whether a new or updated task validates is the parameter `taskValid`. `completed` defaults to false.
- Casting is narrowed to JSON strings for string paths, JSON numbers for numbers and JSON booleans for booleans. Anything else is a cast failure. Mongoose also accepts strings such as "true" for booleans and numeric strings for numbers. In the other direction, it converts a JSON number or boolean sent for a string path (`name`, `email`, `password`, `description`) with `toString` and accepts it, where the model reports a cast failure and replies 400.
- Ids are natural numbers taken from a counter, not ObjectIds. `_id` keys in a sign-up or task-creation body are not modelled.
- Timestamps are set from `now` when a document is created. The refresh of `updatedAt` on later saves is not modelled.
- Saves that change only the token list or the avatar are not validated again: every stored document has already passed validation. Their 500 failure branches are not modelled.
- Concurrency is not modelled. Each handler runs to completion on one store, so the lost update between two simultaneous logins of one user does not arise.
- Text.ToLower: lower-cases only ASCII letters. JavaScript's `toLowerCase` also maps non-ASCII letters.
- `limit` and `skip` are given already parsed. An absent or unparsable value is `None`, and negative values are not modelled. Arrays from repeated query parameters are not modelled.
- A login body without an email is not modelled: Mongoose would drop the missing value from the query and match the first user. The model's email is always a string.
- UserRouter.Login: a body without a string `password` is not modelled. With a known email, bcryptjs's `compare` rejects a missing password with "Illegal arguments: undefined, string", and the route replies 400 with that third message. The model's password is always a string.
- UserRouter.UploadAvatar: requires both computed sides to be positive (`ImageUtils.Resizable`). For a thinner upload, such as 1000×2 scaling to 350×0, sharp rejects the resize. The handler has no try/catch, and Express 4 does not pass a rejected promise to the route's error handler, so the request gets no reply and no avatar is stored.
- UserModel.NewUser: ignores `tokens`, `avatar`, `createdAt` and `updatedAt` in the body, which `new User(req.body)` would also assign. The model's JSON values have no arrays or binary data, and the timestamps come from `now`.
- UserRouter.Signup: because of the above, a sign-up body cannot seed extra tokens, an avatar or timestamps. The new user's only token is the issued one.
- Records.Json: a JSON number is an exact decimal, not an IEEE double. The rounding of very long or very large numbers is not modelled, so an age is compared exactly.
- TaskRouter.ListRoute: always replies 200. A `sortBy` whose path is empty (`sortBy=:desc` builds `sort[""]`, `src/routers/task.js:35-37`) or starts with `$` is rejected by MongoDB, so in the source the request reaches the catch branch (`src/routers/task.js:53-55`) and gets a 500. The model does not include MongoDB's field-path rules. It sorts on such a path as on a path no task has.
- MongoDB's order across BSON types is modelled only for the kinds a task path can hold: missing, numbers (ids and dates), strings and booleans.

=== FILE: image.dfy ===
/** The avatar resize rule of `calculateImageDimentions`: the longer side
    becomes `maxSize`, the shorter side is scaled by the same factor and truncated. */
module ImageUtils {

  /** The size the avatar is resized to (the object handed to `sharp().resize`). */
  datatype Dimensions = Dimensions(width: int, height: int)

  /** The longest side of the stored avatar. */
  const AvatarMaxSize: nat := 350

  /** Exact integer model of `calculateImageDimentions(width, height, maxSize)`.
      When the image is wider than tall the width becomes `maxSize`; otherwise
      (square included) the height does. The other side is the truncated quotient
      of `maxSize` times the ratio of the two sides. */
  function CalculateImageDimensions(width: int, height: int, maxSize: nat): (d: Dimensions)
    requires width > 0 && height > 0
    ensures width > height ==> d.width == maxSize
    ensures width > height ==> d.height * width <= maxSize * height < (d.height + 1) * width
    ensures width <= height ==> d.height == maxSize
    ensures width <= height ==> d.width * height <= maxSize * width < (d.width + 1) * height
  {
    if width > height then
      var h := maxSize * height / width;
      FloorDivision(maxSize * height, width);
      Dimensions(maxSize, h)
    else
      var w := maxSize * width / height;
      FloorDivision(maxSize * width, height);
      Dimensions(w, maxSize)
  }

  /** Dafny's division of a non-negative number by a positive one is truncation. */
  lemma FloorDivision(x: nat, y: int)
    requires y > 0
    ensures (x / y) * y <= x < (x / y + 1) * y
  {
    var q := x / y;
    var m := x % y;
    assert x == q * y + m;
  }

  /** If `q * b <= a * c` and `c <= b`, then `q <= a`: the truncated side never
      exceeds the side that was clamped. */
  lemma ScaledNotLarger(q: int, a: nat, b: int, c: int)
    requires b > 0 && 0 < c <= b
    requires q * b <= a * c
    ensures q <= a
  {
    assert a * c <= a * b;
    assert (a - q) * b >= 0;
  }

  /** Both sides fit in `maxSize`, the longer output side is exactly `maxSize`,
      no side is negative, and the orientation of the image is kept. */
  lemma {:induction false} DimensionsBounded(width: int, height: int, maxSize: nat)
    requires width > 0 && height > 0
    ensures var d := CalculateImageDimensions(width, height, maxSize);
      && 0 <= d.width <= maxSize && 0 <= d.height <= maxSize
      && (d.width == maxSize || d.height == maxSize)
      && (width > height ==> d.height <= d.width)
      && (width < height ==> d.width <= d.height)
  {
    var d := CalculateImageDimensions(width, height, maxSize);
    if width > height {
      ScaledNotLarger(d.height, maxSize, width, height);
      NonNegativeQuotient(d.height, maxSize * height, width);
    } else {
      ScaledNotLarger(d.width, maxSize, height, width);
      NonNegativeQuotient(d.width, maxSize * width, height);
    }
  }

  lemma NonNegativeQuotient(q: int, x: nat, y: int)
    requires y > 0 && x < (q + 1) * y
    requires q == x / y
    ensures q >= 0
  {
    if q < 0 {
      NonPosTimesPos(q + 1, y);
    }
  }

  /** A non-positive number times a positive one is not positive. */
  lemma NonPosTimesPos(a: int, b: int)
    requires a <= 0 && b > 0
    ensures a * b <= 0
  {
    assert (-a) * b >= 0;
  }

  /** A square image becomes `maxSize` by `maxSize`. */
  lemma SquareIsMaxSquare(side: int, maxSize: nat)
    requires side > 0
    ensures CalculateImageDimensions(side, side, maxSize) == Dimensions(maxSize, maxSize)
  {
    MulDiv(maxSize, side);
  }

  /** Multiplying and then dividing by the same positive number is the identity. */
  lemma MulDiv(a: nat, b: int)
    requires b > 0
    ensures a * b / b == a
  {
    var q := a * b / b;
    FloorDivision(a * b, b);
    CancelLe(q, a, b);
    CancelLt(a, q + 1, b);
  }

  lemma CancelLe(x: int, y: int, b: int)
    requires b > 0 && x * b <= y * b
    ensures x <= y
  {
    assert (y - x) * b >= 0;
  }

  lemma CancelLt(x: int, y: int, b: int)
    requires b > 0 && x * b < y * b
    ensures x < y
  {
    assert (y - x) * b > 0;
  }

  /** Swapping width and height swaps the output, except for a square, whose
      output is square anyway. */
  lemma {:induction false} TransposeSymmetric(width: int, height: int, maxSize: nat)
    requires width > 0 && height > 0 && width != height
    ensures var d := CalculateImageDimensions(width, height, maxSize);
      CalculateImageDimensions(height, width, maxSize) == Dimensions(d.height, d.width)
  {
  }

  /** The worked cases: 1000x500 at 350 is 350x175, and 500x1000 is 175x350. */
  lemma AvatarExamples()
    ensures CalculateImageDimensions(1000, 500, AvatarMaxSize) == Dimensions(350, 175)
    ensures CalculateImageDimensions(500, 1000, AvatarMaxSize) == Dimensions(175, 350)
  {
  }

  /** Exact arithmetic gives 245 for a 1000x700 image where the double-precision
      computation of the source yields 244 (0.7 is not representable). */
  lemma ExactTruncationExample()
    ensures CalculateImageDimensions(1000, 700, AvatarMaxSize) == Dimensions(350, 245)
  {
  }

  /** sharp's `resize` rejects a side of zero, so an upload can be stored only
      when both computed sides of the avatar are positive. */
  predicate Resizable(width: int, height: int) {
    && width > 0 && height > 0
    && var d := CalculateImageDimensions(width, height, AvatarMaxSize);
       d.width > 0 && d.height > 0
  }

  /** An upload is resizable exactly when its shorter side, scaled up by the
      maximum, reaches its longer side: the truncated short side is then at
      least one pixel. */
  lemma ResizableIff(width: int, height: int)
    requires width > 0 && height > 0
    ensures Resizable(width, height) <==>
      if width > height then AvatarMaxSize * height >= width else AvatarMaxSize * width >= height
  {
    var d := CalculateImageDimensions(width, height, AvatarMaxSize);
    if width > height {
      ShortSidePositive(d.height, AvatarMaxSize * height, width);
    } else {
      ShortSidePositive(d.width, AvatarMaxSize * width, height);
    }
  }

  /** A truncated quotient `q` of `x` by `y` is positive exactly when `x >= y`. */
  lemma ShortSidePositive(q: int, x: int, y: int)
    requires y > 0 && q * y <= x < (q + 1) * y
    ensures q > 0 <==> x >= y
  {
    if q > 0 {
      assert (q - 1) * y >= 0;
    } else {
      NonPosTimesPos(q, y);
    }
  }

  /** A 1000x2 upload scales to 350x0, which sharp refuses; 1000x3 becomes 350x1. */
  lemma ThinUploadExamples()
    ensures CalculateImageDimensions(1000, 2, AvatarMaxSize) == Dimensions(350, 0)
    ensures !Resizable(1000, 2) && Resizable(1000, 3)
  {
  }
}

=== FILE: records.dfy ===
/** The documents of the `User` and `Task` collections, an in-memory store that
    holds both, and the JSON values of a request body. */
module Records {
  import opened Wrappers
  import Seqs

  /** A document `_id`. MongoDB assigns ObjectIds; here the store hands out
      consecutive numbers. */
  type Id = nat

  /** A bearer token string as issued by `jwt.sign`. */
  type Token = string

  newtype byte = b: int | 0 <= b < 256

  /** A user document. `password` holds what is persisted: the bcrypt digest
      once saved. `avatar` is the optional PNG buffer. */
  datatype User = User(
    id: Id,
    name: string,
    email: string,
    password: string,
    age: real,
    tokens: seq<Token>,
    avatar: Option<seq<byte>>,
    createdAt: nat,
    updatedAt: nat)

  /** A task document; `owner` is the `_id` of the user it belongs to. */
  datatype Task = Task(
    id: Id,
    description: string,
    completed: bool,
    owner: Id,
    createdAt: nat,
    updatedAt: nat)

  /** Both collections in natural (insertion) order, and the next unused `_id`. */
  datatype Store = Store(users: seq<User>, tasks: seq<Task>, nextId: Id)

  /** A JSON value of a parsed request body, as far as the schemas can cast it.
      A JSON number is any finite decimal, so it is a `real`. */
  datatype Json = JString(s: string) | JNumber(n: real) | JBool(b: bool) | JOther

  /** A parsed JSON request body: `Object.keys(req.body)` is its key set. */
  type Body = map<string, Json>

  /** `User.findById(id)`: the position of the user with that `_id`. */
  function FindUser(users: seq<User>, id: Id): (r: Option<nat>)
    ensures r.Some? ==> r.value < |users| && users[r.value].id == id
    ensures r.None? <==> forall k :: 0 <= k < |users| ==> users[k].id != id
  {
    Seqs.FirstIndex(users, (u: User) => u.id == id)
  }

  /** `Task.findOne({_id, owner})`: the position of the task with that `_id`
      AND that owner. */
  function FindOwnedTask(tasks: seq<Task>, id: Id, owner: Id): (r: Option<nat>)
    ensures r.Some? ==> r.value < |tasks| && tasks[r.value].id == id && tasks[r.value].owner == owner
    ensures r.None? <==> forall k :: 0 <= k < |tasks| ==> !(tasks[k].id == id && tasks[k].owner == owner)
  {
    Seqs.FirstIndex(tasks, (t: Task) => t.id == id && t.owner == owner)
  }

  /** What the authentication middleware establishes before a protected handler
      runs: the caller's document exists and still lists the presented token. */
  predicate Authenticated(s: Store, caller: Id, token: Token) {
    match FindUser(s.users, caller)
    case None => false
    case Some(i) => token in s.users[i].tokens
  }

  /** The guarantees the database gives: unique `_id`s (and an id counter past
      all of them), the unique index on `email`, and — kept by the cascade on
      user removal — every task's owner exists. */
  ghost predicate Valid(s: Store) {
    && (forall i, j :: 0 <= i < j < |s.users| ==> s.users[i].id != s.users[j].id)
    && (forall i, j :: 0 <= i < j < |s.users| ==> s.users[i].email != s.users[j].email)
    && (forall i, j :: 0 <= i < j < |s.tasks| ==> s.tasks[i].id != s.tasks[j].id)
    && (forall i :: 0 <= i < |s.users| ==> s.users[i].id < s.nextId)
    && (forall i :: 0 <= i < |s.tasks| ==> s.tasks[i].id < s.nextId)
    && (forall i :: 0 <= i < |s.tasks| ==> OwnerExists(s.users, s.tasks[i]))
  }

  predicate OwnerExists(users: seq<User>, t: Task) {
    exists k :: 0 <= k < |users| && users[k].id == t.owner
  }

  /** Some user other than `self` already has this email. */
  predicate EmailTaken(users: seq<User>, email: string, self: Id) {
    exists k :: 0 <= k < |users| && users[k].email == email && users[k].id != self
  }

  /** The store after a handler, and what it sends back. */
  datatype Outcome<+T> = Outcome(store: Store, reply: Reply<T>)

  /** Replacing a user document by one with the same `_id`, and an email no
      other user has, keeps the store valid. */
  lemma ReplaceUserKeepsValid(s: Store, i: nat, u: User)
    requires Valid(s) && i < |s.users|
    requires u.id == s.users[i].id
    requires forall k :: 0 <= k < |s.users| && k != i ==> s.users[k].email != u.email
    ensures Valid(s.(users := s.users[i := u]))
  {
    var users := s.users[i := u];
    forall t | t in s.tasks ensures OwnerExists(users, t) {
      var k :| 0 <= k < |s.users| && s.users[k].id == t.owner;
      assert users[k].id == t.owner;
    }
  }

  /** Replacing a task by one with the same `_id` and owner keeps the store valid. */
  lemma ReplaceTaskKeepsValid(s: Store, i: nat, t: Task)
    requires Valid(s) && i < |s.tasks|
    requires t.id == s.tasks[i].id && t.owner == s.tasks[i].owner
    ensures Valid(s.(tasks := s.tasks[i := t]))
  {
    var ts := s.tasks[i := t];
    forall k | 0 <= k < |ts| ensures ts[k].id == s.tasks[k].id && ts[k].owner == s.tasks[k].owner {
    }
    forall k | 0 <= k < |ts| ensures OwnerExists(s.users, ts[k]) {
      assert OwnerExists(s.users, s.tasks[k]);
    }
  }

  /** Removing the task at position `i` keeps the store valid. */
  lemma RemoveTaskKeepsValid(s: Store, i: nat)
    requires Valid(s) && i < |s.tasks|
    ensures Valid(s.(tasks := Seqs.RemoveAt(s.tasks, i)))
  {
    var ts := Seqs.RemoveAt(s.tasks, i);
    forall a, b | 0 <= a < b < |ts| ensures ts[a].id != ts[b].id {
      var a' := if a < i then a else a + 1;
      var b' := if b < i then b else b + 1;
      assert ts[a] == s.tasks[a'] && ts[b] == s.tasks[b'];
    }
    forall k | 0 <= k < |ts| ensures ts[k].id < s.nextId && OwnerExists(s.users, ts[k]) {
      var k' := if k < i then k else k + 1;
      assert ts[k] == s.tasks[k'];
      assert OwnerExists(s.users, s.tasks[k']);
    }
  }

  /** Adding a user under the next id, with an email no user has, keeps the
      store valid. */
  lemma AppendUserKeepsValid(s: Store, u: User)
    requires Valid(s)
    requires u.id == s.nextId
    requires forall k :: 0 <= k < |s.users| ==> s.users[k].email != u.email
    ensures Valid(Store(s.users + [u], s.tasks, s.nextId + 1))
  {
    var us := s.users + [u];
    forall a, b | 0 <= a < b < |us| ensures us[a].id != us[b].id && us[a].email != us[b].email {
      assert us[a] == s.users[a];
    }
    forall k | 0 <= k < |s.tasks| ensures OwnerExists(us, s.tasks[k]) {
      assert OwnerExists(s.users, s.tasks[k]);
      var m :| 0 <= m < |s.users| && s.users[m].id == s.tasks[k].owner;
      assert us[m] == s.users[m];
    }
  }

  /** Adding a task under the next id, owned by an existing user, keeps the
      store valid. */
  lemma AppendTaskKeepsValid(s: Store, t: Task)
    requires Valid(s)
    requires t.id == s.nextId && OwnerExists(s.users, t)
    ensures Valid(s.(tasks := s.tasks + [t], nextId := s.nextId + 1))
  {
    var ts := s.tasks + [t];
    forall a, b | 0 <= a < b < |ts| ensures ts[a].id != ts[b].id {
      assert ts[a] == s.tasks[a];
    }
    forall k | 0 <= k < |ts| ensures OwnerExists(s.users, ts[k]) {
      if k < |s.tasks| {
        assert ts[k] == s.tasks[k];
      }
    }
  }
}

=== FILE: seqs.dfy ===
/** Order-preserving selection over sequences: the shape of `Array.prototype.filter`,
    of a MongoDB `find` over a collection in natural order, and of `findOne`. */
module Seqs {
  import opened Wrappers

  /** The elements of `xs` that satisfy `p`, in their original order. */
  function Filter<T(==,!new)>(xs: seq<T>, p: T -> bool): (r: seq<T>)
    ensures |r| <= |xs|
    ensures forall x :: x in r <==> x in xs && p(x)
  {
    if |xs| == 0 then []
    else
      var rest := Filter(xs[1..], p);
      assert xs == [xs[0]] + xs[1..];
      if p(xs[0]) then [xs[0]] + rest else rest
  }

  /** A filter keeps every occurrence of an element that passes and none of an
      element that fails. */
  lemma {:induction false} FilterCounts<T(!new)>(xs: seq<T>, p: T -> bool, x: T)
    ensures p(x) ==> multiset(Filter(xs, p))[x] == multiset(xs)[x]
    ensures !p(x) ==> multiset(Filter(xs, p))[x] == 0
  {
    if |xs| > 0 {
      FilterCounts(xs[1..], p, x);
      assert xs == [xs[0]] + xs[1..];
    }
  }

  /** Filtering distributes over concatenation: the kept elements stay in their
      original relative order. */
  lemma {:induction false} FilterConcat<T(!new)>(a: seq<T>, b: seq<T>, p: T -> bool)
    ensures Filter(a + b, p) == Filter(a, p) + Filter(b, p)
  {
    if |a| == 0 {
      assert a + b == b;
    } else {
      assert (a + b)[1..] == a[1..] + b;
      FilterConcat(a[1..], b, p);
    }
  }

  /** A filter keeps a sequence whose elements all pass it unchanged. */
  lemma {:induction false} FilterKeepsAll<T(!new)>(xs: seq<T>, p: T -> bool)
    requires forall k :: 0 <= k < |xs| ==> p(xs[k])
    ensures Filter(xs, p) == xs
  {
    if |xs| > 0 {
      FilterKeepsAll(xs[1..], p);
    }
  }

  /** Filtering twice with the same predicate is filtering once. */
  lemma FilterIdempotent<T(!new)>(xs: seq<T>, p: T -> bool)
    ensures Filter(Filter(xs, p), p) == Filter(xs, p)
  {
    var r := Filter(xs, p);
    forall k | 0 <= k < |r| ensures p(r[k]) {
      assert r[k] in r;
    }
    FilterKeepsAll(r, p);
  }

  /** A filter keeps any relation that held between every earlier and later
      element: distinct keys stay distinct. */
  lemma {:induction false} FilterPairwise<T(!new)>(xs: seq<T>, p: T -> bool, rel: (T, T) -> bool)
    requires forall i, j :: 0 <= i < j < |xs| ==> rel(xs[i], xs[j])
    ensures forall i, j :: 0 <= i < j < |Filter(xs, p)| ==> rel(Filter(xs, p)[i], Filter(xs, p)[j])
  {
    if |xs| > 0 {
      var rest := Filter(xs[1..], p);
      FilterPairwise(xs[1..], p, rel);
      if p(xs[0]) {
        var r := [xs[0]] + rest;
        assert Filter(xs, p) == r;
        forall i, j | 0 <= i < j < |r| ensures rel(r[i], r[j]) {
          if i == 0 {
            assert r[j] == rest[j - 1] && rest[j - 1] in rest;
            var k :| 0 <= k < |xs[1..]| && xs[1..][k] == r[j];
            assert xs[k + 1] == r[j];
          } else {
            assert r[i] == rest[i - 1] && r[j] == rest[j - 1];
          }
        }
      }
    }
  }

  /** A filter that rejects some element of the sequence makes it shorter. */
  lemma {:induction false} FilterShrinks<T(!new)>(xs: seq<T>, p: T -> bool, x: T)
    requires x in xs && !p(x)
    ensures |Filter(xs, p)| < |xs|
  {
    if xs[0] != x {
      FilterShrinks(xs[1..], p, x);
    }
  }

  /** The index of the first element satisfying `p`, if any. */
  function FirstIndex<T>(xs: seq<T>, p: T -> bool): (r: Option<nat>)
    ensures r.Some? ==> r.value < |xs| && p(xs[r.value])
    ensures r.Some? ==> forall k :: 0 <= k < r.value ==> !p(xs[k])
    ensures r.None? <==> forall k :: 0 <= k < |xs| ==> !p(xs[k])
  {
    if |xs| == 0 then None
    else if p(xs[0]) then Some(0)
    else match FirstIndex(xs[1..], p)
      case None => None
      case Some(k) => Some(k + 1)
  }

  /** The sequence without its element at index `i`. */
  function RemoveAt<T>(xs: seq<T>, i: nat): (r: seq<T>)
    requires i < |xs|
    ensures |r| == |xs| - 1
    ensures forall k :: 0 <= k < i ==> r[k] == xs[k]
    ensures forall k :: i <= k < |r| ==> r[k] == xs[k + 1]
  {
    xs[..i] + xs[i + 1..]
  }

  /** An element survives removal at `i` exactly when it occurs at some other index. */
  lemma RemoveAtMembers<T>(xs: seq<T>, i: nat, x: T)
    requires i < |xs|
    ensures x in RemoveAt(xs, i) <==> exists j :: 0 <= j < |xs| && j != i && xs[j] == x
  {
    var r := RemoveAt(xs, i);
    if x in r {
      var k :| 0 <= k < |r| && r[k] == x;
      var j := if k < i then k else k + 1;
      assert xs[j] == x;
    }
    if j :| 0 <= j < |xs| && j != i && xs[j] == x {
      assert r[if j < i then j else j - 1] == x;
    }
  }
}

=== FILE: task_query.dfy ===
/** `GET /tasks`: how the `completed`, `sortBy`, `limit` and `skip` query
    parameters become a match and a sort, and the page they select from the
    caller's tasks: scope to the owner, filter, sort, skip, limit. */
module TaskQuery {
  import opened Wrappers
  import opened Text
  import opened Records
  import Seqs

  /** The raw query string parameters; `limit` and `skip` already through
      `parseInt`, with `None` for an absent or unparsable value. */
  datatype Query = Query(completed: Option<string>, sortBy: Option<string>, limit: Option<nat>, skip: Option<nat>)

  datatype Direction = Ascending | Descending

  /** One entry of the `sort` object: the path and 1 or -1. */
  datatype SortSpec = SortSpec(field: string, direction: Direction)

  /** A query string value is truthy in JavaScript unless absent or empty. */
  predicate Truthy(v: Option<string>) {
    v.Some? && v.value != ""
  }

  /** The `match` object: no condition unless `completed` is truthy, and then
      `completed === 'true'`. */
  function BuildMatch(completed: Option<string>): (m: Option<bool>)
    ensures m.None? <==> !Truthy(completed)
    ensures m == Some(true) <==> completed == Some("true")
    ensures m == Some(false) <==> Truthy(completed) && completed.value != "true"
  {
    if Truthy(completed) then Some(completed.value == "true") else None
  }

  /** The `sort` object: for a truthy `sortBy`, the path is the text before the
      first ':' and the direction is -1 exactly when the second ':'-separated
      piece is "desc". */
  function BuildSort(sortBy: Option<string>): (r: Option<SortSpec>)
    ensures r.None? <==> !Truthy(sortBy)
    ensures r.Some? ==> r.value.field == Split(sortBy.value, ':')[0]
    ensures r.Some? ==> (r.value.direction == Descending <==>
      var parts := Split(sortBy.value, ':'); |parts| > 1 && parts[1] == "desc")
  {
    if !Truthy(sortBy) then None
    else
      var parts := Split(sortBy.value, ':');
      Some(SortSpec(parts[0], if |parts| > 1 && parts[1] == "desc" then Descending else Ascending))
  }

  /** The sort path read straight off the text: it holds no ':', and it is
      either the whole of `sortBy` or followed by a ':'. The direction is
      descending exactly when `sortBy` continues with "desc" followed by the
      end of the text or another ':'. */
  lemma {:induction false} BuildSortReadsText(sortBy: string)
    requires sortBy != ""
    ensures var spec := BuildSort(Some(sortBy)).value; var f := spec.field;
      && ':' !in f
      && (f == sortBy || (|f| < |sortBy| && sortBy[..|f| + 1] == f + ":"))
      && (spec.direction == Descending <==>
            (sortBy == f + ":desc" || (|f| + 6 <= |sortBy| && sortBy[..|f| + 6] == f + ":desc:")))
  {
    var parts := Split(sortBy, ':');
    JoinSplit(sortBy, ':');
    var f := parts[0];
    if |parts| == 1 {
      assert sortBy == f;
    } else {
      var tail := Join(parts[1..], ':');
      assert sortBy == f + ":" + tail;
      assert sortBy[..|f| + 1] == f + ":";
      var second := parts[1];
      if |parts| == 2 {
        assert tail == second;
        assert sortBy == f + ":" + second;
        if |f| + 6 <= |sortBy| {
          assert sortBy[|f| + 5] == second[4];
        }
      } else {
        var rest := Join(parts[2..], ':');
        assert parts[1..][1..] == parts[2..];
        assert tail == second + ":" + rest;
        assert sortBy == f + ":" + second + ":" + rest;
        NotOnlyDesc(f, second, rest);
        if second == "desc" {
          assert sortBy[..|f| + 6] == f + ":desc:";
        }
        if |f| + 6 <= |sortBy| && sortBy[..|f| + 6] == f + ":desc:" {
          SecondPieceIsDesc(f, second, rest);
        }
      }
    }
  }

  /** Helper: text with two separators after the path is never `path:desc`. */
  lemma NotOnlyDesc(f: string, second: string, rest: string)
    requires ':' !in second
    ensures f + ":" + second + ":" + rest != f + ":desc"
  {
    var s := f + ":" + second + ":" + rest;
    var k := |f| + 1 + |second|;
    assert s[k] == ':';
    if k < |f| + 5 {
      assert (f + ":desc")[k] != ':';
    }
  }

  /** Helper: a separator-free piece followed by ':' is determined by the text. */
  lemma SecondPieceIsDesc(f: string, second: string, rest: string)
    requires ':' !in second
    requires |f| + 6 <= |f + ":" + second + ":" + rest|
    requires (f + ":" + second + ":" + rest)[..|f| + 6] == f + ":desc:"
    ensures second == "desc"
  {
    var s := f + ":" + second + ":" + rest;
    var a := s[|f| + 1..];
    assert a == second + ":" + rest;
    assert a[..5] == s[..|f| + 6][|f| + 1..];
    assert a[..5] == "desc:";
    assert a[0] == 'd' && a[1] == 'e' && a[2] == 's' && a[3] == 'c' && a[4] == ':';
    assert forall k :: 0 <= k < |second| ==> a[k] == second[k];
    assert a[|second|] == ':';
    assert |second| == 4;
    assert second == a[..4];
  }

  /** A task's value at a sort path, as MongoDB compares it: ObjectIds and
      dates by the model's numbers, `description` as a string, `completed` as a
      boolean, and any other path as missing. */
  datatype Key = Missing | Num(n: int) | Str(s: string) | Flag(b: bool)

  function KeyOf(t: Task, field: string): Key {
    if field == "_id" then Num(t.id)
    else if field == "owner" then Num(t.owner)
    else if field == "createdAt" then Num(t.createdAt)
    else if field == "updatedAt" then Num(t.updatedAt)
    else if field == "description" then Str(t.description)
    else if field == "completed" then Flag(t.completed)
    else Missing
  }

  /** BSON type order for the kinds that occur: missing, numbers, strings, booleans. */
  function Rank(k: Key): nat {
    match k
    case Missing => 0
    case Num(_) => 1
    case Str(_) => 2
    case Flag(_) => 3
  }

  /** MongoDB's ascending order on the keys above. */
  predicate KeyLe(a: Key, b: Key) {
    if Rank(a) != Rank(b) then Rank(a) < Rank(b)
    else match a
      case Missing => true
      case Num(x) => x <= b.n
      case Str(x) => LexLe(x, b.s)
      case Flag(x) => !x || b.b
  }

  lemma KeyLeTotal(a: Key, b: Key)
    ensures KeyLe(a, b) || KeyLe(b, a)
  {
    if a.Str? && b.Str? {
      LexLeTotal(a.s, b.s);
    }
  }

  lemma KeyLeTransitive(a: Key, b: Key, c: Key)
    requires KeyLe(a, b) && KeyLe(b, c)
    ensures KeyLe(a, c)
  {
    if a.Str? && b.Str? && c.Str? {
      LexLeTransitive(a.s, b.s, c.s);
    }
  }

  /** `a` may come before `b` in the order the sort spec asks for. */
  predicate Before(a: Task, b: Task, spec: SortSpec) {
    match spec.direction
    case Ascending => KeyLe(KeyOf(a, spec.field), KeyOf(b, spec.field))
    case Descending => KeyLe(KeyOf(b, spec.field), KeyOf(a, spec.field))
  }

  lemma BeforeTotal(a: Task, b: Task, spec: SortSpec)
    ensures Before(a, b, spec) || Before(b, a, spec)
  {
    KeyLeTotal(KeyOf(a, spec.field), KeyOf(b, spec.field));
  }

  lemma BeforeTransitive(a: Task, b: Task, c: Task, spec: SortSpec)
    requires Before(a, b, spec) && Before(b, c, spec)
    ensures Before(a, c, spec)
  {
    var ka, kb, kc := KeyOf(a, spec.field), KeyOf(b, spec.field), KeyOf(c, spec.field);
    if spec.direction == Ascending {
      KeyLeTransitive(ka, kb, kc);
    } else {
      KeyLeTransitive(kc, kb, ka);
    }
  }

  /** Every earlier task may come before every later one. */
  predicate SortedBy(ts: seq<Task>, spec: SortSpec) {
    forall i, j :: 0 <= i < j < |ts| ==> Before(ts[i], ts[j], spec)
  }

  /** Inserts `t` into a sorted sequence before the first task it may precede. */
  function Insert(t: Task, ts: seq<Task>, spec: SortSpec): (r: seq<Task>)
    requires SortedBy(ts, spec)
    ensures SortedBy(r, spec)
    ensures multiset(r) == multiset(ts) + multiset{t}
  {
    if |ts| == 0 then [t]
    else if Before(t, ts[0], spec) then
      forall j | 0 <= j < |ts| ensures Before(t, ts[j], spec) {
        if j > 0 {
          BeforeTransitive(t, ts[0], ts[j], spec);
        }
      }
      [t] + ts
    else
      BeforeTotal(t, ts[0], spec);
      var rest := Insert(t, ts[1..], spec);
      assert ts == [ts[0]] + ts[1..];
      forall j | 0 <= j < |rest| ensures Before(ts[0], rest[j], spec) {
        assert rest[j] in multiset(rest);
        if rest[j] != t {
          assert rest[j] in multiset(ts[1..]);
          var k :| 0 <= k < |ts[1..]| && ts[1..][k] == rest[j];
          assert ts[k + 1] == rest[j];
        }
      }
      [ts[0]] + rest
  }

  /** Insertion sort: a sorted permutation of its input. */
  function Sort(ts: seq<Task>, spec: SortSpec): (r: seq<Task>)
    ensures SortedBy(r, spec)
    ensures multiset(r) == multiset(ts)
  {
    if |ts| == 0 then []
    else
      assert ts == [ts[0]] + ts[1..];
      Insert(ts[0], Sort(ts[1..], spec), spec)
  }

  /** Whether a task satisfies the `match` object. */
  predicate Matches(t: Task, m: Option<bool>) {
    m.None? || t.completed == m.value
  }

  /** The tasks `populate` selects: the caller's, satisfying the match, in
      natural order. */
  function Selected(tasks: seq<Task>, owner: Id, m: Option<bool>): (r: seq<Task>)
    ensures forall t :: t in r <==> t in tasks && t.owner == owner && Matches(t, m)
  {
    Seqs.Filter(tasks, (t: Task) => t.owner == owner && Matches(t, m))
  }

  /** The order the sort object imposes; natural order without one. */
  function Arrange(ts: seq<Task>, sort: Option<SortSpec>): (r: seq<Task>)
    ensures multiset(r) == multiset(ts)
    ensures sort.Some? ==> SortedBy(r, sort.value)
  {
    if sort.None? then ts else Sort(ts, sort.value)
  }

  /** Where the page starts: `skip`, capped at the end of the list. */
  function Offset(skip: Option<nat>, n: nat): (k: nat)
    ensures k <= n
    ensures skip.None? ==> k == 0
    ensures skip.Some? ==> k == if skip.value < n then skip.value else n
  {
    if skip.None? then 0 else if skip.value < n then skip.value else n
  }

  /** A limit MongoDB applies; a limit of 0 means no limit. */
  predicate Limited(limit: Option<nat>) {
    limit.Some? && limit.value > 0
  }

  /** Drop `skip` tasks, then take at most `limit`. */
  function Page(ts: seq<Task>, skip: Option<nat>, limit: Option<nat>): (r: seq<Task>)
    ensures Offset(skip, |ts|) + |r| <= |ts|
    ensures forall i :: 0 <= i < |r| ==> r[i] == ts[Offset(skip, |ts|) + i]
    ensures Limited(limit) ==> |r| <= limit.value
    ensures Offset(skip, |ts|) + |r| == |ts| || (Limited(limit) && |r| == limit.value)
  {
    var rest := ts[Offset(skip, |ts|)..];
    if Limited(limit) && limit.value < |rest| then rest[..limit.value] else rest
  }

  /** The reply body of `GET /tasks`: the caller's tasks that satisfy the
      match, in sort order, after skipping and limiting. */
  function ListTasks(tasks: seq<Task>, owner: Id, q: Query): seq<Task> {
    Page(Candidates(tasks, owner, q), q.skip, q.limit)
  }

  /** Arranging keeps exactly the same tasks. */
  lemma ArrangeSameMembers(ts: seq<Task>, sort: Option<SortSpec>)
    ensures forall t :: t in Arrange(ts, sort) <==> t in ts
  {
    var r := Arrange(ts, sort);
    forall t ensures t in r <==> t in ts {
      assert t in r <==> t in multiset(r);
      assert t in ts <==> t in multiset(ts);
    }
  }

  /** The page is a slice of its input. */
  lemma PageIsSlice(ts: seq<Task>, skip: Option<nat>, limit: Option<nat>)
    ensures var r := Page(ts, skip, limit); var from := Offset(skip, |ts|);
      && r == ts[from..from + |r|]
      && (forall t :: t in r ==> t in ts)
  {
    var r := Page(ts, skip, limit);
    var from := Offset(skip, |ts|);
    assert r == ts[from..from + |r|];
    forall t | t in r ensures t in ts {
      var i :| 0 <= i < |r| && r[i] == t;
      assert ts[from + i] == t;
    }
  }

  /** The tasks a query ranges over before paging: the caller's tasks that
      satisfy the match, in the requested order. */
  function Candidates(tasks: seq<Task>, owner: Id, q: Query): seq<Task> {
    Arrange(Selected(tasks, owner, BuildMatch(q.completed)), BuildSort(q.sortBy))
  }

  /** The candidates are exactly the caller's tasks that satisfy the match. */
  lemma CandidatesAreOwnedMatches(tasks: seq<Task>, owner: Id, q: Query)
    ensures forall t :: t in Candidates(tasks, owner, q) <==>
      t in tasks && t.owner == owner && Matches(t, BuildMatch(q.completed))
  {
    ArrangeSameMembers(Selected(tasks, owner, BuildMatch(q.completed)), BuildSort(q.sortBy));
  }

  /** The page is a window of the candidates: it holds them exactly from the
      `skip` position on, it stops at their end or after `limit` tasks, it is
      in sort order, and every task in it is one of the caller's tasks that
      satisfies the match. */
  lemma {:induction false} ListTasksIsWindow(tasks: seq<Task>, owner: Id, q: Query)
    ensures var all := Candidates(tasks, owner, q);
      var r := ListTasks(tasks, owner, q);
      var from := Offset(q.skip, |all|);
      && r == all[from..from + |r|]
      && (from + |r| == |all| || (Limited(q.limit) && |r| == q.limit.value))
      && (Limited(q.limit) ==> |r| <= q.limit.value)
      && (forall t :: t in r ==> t in tasks && t.owner == owner && Matches(t, BuildMatch(q.completed)))
  {
    var all := Candidates(tasks, owner, q);
    CandidatesAreOwnedMatches(tasks, owner, q);
    PageIsSlice(all, q.skip, q.limit);
  }

  /** With a `sortBy`, the page is in the requested order: non-decreasing by
      the sort path for "asc", non-increasing for "desc". */
  lemma {:induction false} ListTasksSorted(tasks: seq<Task>, owner: Id, q: Query)
    requires BuildSort(q.sortBy).Some?
    ensures SortedBy(ListTasks(tasks, owner, q), BuildSort(q.sortBy).value)
  {
    var all := Candidates(tasks, owner, q);
    var r := ListTasks(tasks, owner, q);
    var from := Offset(q.skip, |all|);
    PageIsSlice(all, q.skip, q.limit);
    SliceSorted(all, from, from + |r|, BuildSort(q.sortBy).value);
  }

  lemma SliceSorted(ts: seq<Task>, lo: nat, hi: nat, spec: SortSpec)
    requires lo <= hi <= |ts|
    requires SortedBy(ts, spec)
    ensures SortedBy(ts[lo..hi], spec)
  {
    var r := ts[lo..hi];
    forall i, j | 0 <= i < j < |r| ensures Before(r[i], r[j], spec) {
      assert r[i] == ts[lo + i] && r[j] == ts[lo + j];
    }
  }

  /** `completed=true` returns only completed tasks, any other non-empty value
      only incomplete ones, and an absent or empty value selects all the
      caller's tasks. */
  lemma CompletedFilter(tasks: seq<Task>, owner: Id, q: Query)
    ensures q.completed == Some("true") ==> forall t :: t in ListTasks(tasks, owner, q) ==> t.completed
    ensures Truthy(q.completed) && q.completed.value != "true" ==>
      forall t :: t in ListTasks(tasks, owner, q) ==> !t.completed
    ensures !Truthy(q.completed) ==>
      forall t :: t in Selected(tasks, owner, BuildMatch(q.completed)) <==> t in tasks && t.owner == owner
  {
    ListTasksIsWindow(tasks, owner, q);
  }

  /** Selecting from a sequence whose first task is the owner's keeps it in front. */
  lemma SelectedKeep(x: Task, xs: seq<Task>, owner: Id)
    requires x.owner == owner
    ensures Selected([x] + xs, owner, None) == [x] + Selected(xs, owner, None)
  {
    assert ([x] + xs)[1..] == xs;
  }

  /** Selecting from a sequence whose first task is someone else's skips it. */
  lemma SelectedSkip(x: Task, xs: seq<Task>, owner: Id)
    requires x.owner != owner
    ensures Selected([x] + xs, owner, None) == Selected(xs, owner, None)
  {
    assert ([x] + xs)[1..] == xs;
  }

  lemma PageSkipOneTakeTwo(a: Task, b: Task, c: Task)
    ensures Page([a, b, c], Some(1), Some(2)) == [b, c]
  {
    assert [a, b, c][1..] == [b, c];
  }

  /** The page test over the task fixtures, where user 1 owns "first task",
      "second task" and "third task" (created in that order) and user 2 owns
      another task: `limit=2&skip=1` gives user 1 its second and third tasks,
      whatever their descriptions. */
  lemma FixturePage(t0: Task, t1: Task, t2: Task, t3: Task)
    requires t0.owner == 1 && t1.owner == 1 && t2.owner == 1 && t3.owner == 2
    ensures ListTasks([t0, t1, t2, t3], 1, Query(None, None, Some(2), Some(1))) == [t1, t2]
  {
    FixtureSelected(t0, t1, t2, t3);
    var q := Query(None, None, Some(2), Some(1));
    NoFilterNoSort([t0, t1, t2, t3], 1, q);
    PageOfCandidates([t0, t1, t2, t3], 1, q, [t0, t1, t2]);
    PageSkipOneTakeTwo(t0, t1, t2);
  }

  /** User 1's tasks among the fixtures, in natural order. */
  lemma FixtureSelected(t0: Task, t1: Task, t2: Task, t3: Task)
    requires t0.owner == 1 && t1.owner == 1 && t2.owner == 1 && t3.owner == 2
    ensures Selected([t0, t1, t2, t3], 1, None) == [t0, t1, t2]
  {
    var l3: seq<Task> := [t3];
    SelectedSkip(t3, [], 1);
    assert [t3] + [] == l3;
    var l2: seq<Task> := [t2] + l3;
    SelectedKeep(t2, l3, 1);
    var l1: seq<Task> := [t1] + l2;
    SelectedKeep(t1, l2, 1);
    var l0: seq<Task> := [t0] + l1;
    SelectedKeep(t0, l1, 1);
    assert l0 == [t0, t1, t2, t3];
    assert [t0] + ([t1] + ([t2] + [])) == [t0, t1, t2];
  }

  /** Without `completed` and `sortBy` the candidates are the caller's tasks in
      natural order. */
  lemma NoFilterNoSort(ts: seq<Task>, owner: Id, q: Query)
    requires q.completed.None? && q.sortBy.None?
    ensures Candidates(ts, owner, q) == Selected(ts, owner, None)
  {
  }

  lemma PageOfCandidates(ts: seq<Task>, owner: Id, q: Query, c: seq<Task>)
    requires Candidates(ts, owner, q) == c
    ensures ListTasks(ts, owner, q) == Page(c, q.skip, q.limit)
  {
  }
}

=== FILE: task_router.dfy ===
/** The task routes: `POST /tasks`, `GET /tasks`, and the owner-scoped
    `GET`, `PATCH` and `DELETE /tasks/:id`. A task that does not belong to the
    caller is reported as not found. */
module TaskRouter {
  import opened Wrappers
  import opened Records
  import opened TaskQuery
  import Seqs

  /** The keys `PATCH /tasks/:id` accepts. */
  const TaskUpdateKeys: set<string> := {"completed", "description"}

  /** The task paths present in the body hold values of the path's type. */
  predicate TaskCasts(body: Body) {
    && ("description" in body ==> body["description"].JString?)
    && ("completed" in body ==> body["completed"].JBool?)
  }

  /** `new Task({...req.body, owner: req.user._id})`: the body's task paths over
      an empty description and `completed` false; the owner is always the
      caller, whatever the body says. */
  function NewTask(id: Id, owner: Id, now: nat, body: Body): (r: Option<Task>)
    ensures r.Some? <==> TaskCasts(body)
    ensures r.Some? ==> r.value.id == id && r.value.owner == owner
    ensures r.Some? ==> r.value.createdAt == now && r.value.updatedAt == now
    ensures r.Some? && "completed" !in body ==> !r.value.completed
    ensures r.Some? && "description" in body ==> r.value.description == body["description"].s
    ensures r.Some? && "completed" in body ==> r.value.completed == body["completed"].b
  {
    if !TaskCasts(body) then None
    else Some(Task(
      id,
      if "description" in body then body["description"].s else "",
      if "completed" in body then body["completed"].b else false,
      owner, now, now))
  }

  /** `POST /tasks`. The task schema is not part of this model: whether the
      new document passes its validation is the parameter `taskValid`. */
  function CreateTask(s: Store, caller: Id, token: Token, body: Body, now: nat, taskValid: Task -> bool)
    : (r: Outcome<Task>)
    requires Authenticated(s, caller, token)
    ensures r.reply.Ok? ==> r.reply.status == 201 && r.reply.body.owner == caller
    ensures r.reply.Ok? ==> r.reply.body.id == s.nextId && taskValid(r.reply.body)
    ensures r.reply.Ok? ==> r.store == s.(tasks := s.tasks + [r.reply.body], nextId := s.nextId + 1)
    ensures r.reply.Err? ==> r.reply == Err(400, Invalid) && r.store == s
    ensures r.reply.Ok? <==> TaskCasts(body) && taskValid(NewTask(s.nextId, caller, now, body).value)
    ensures r.reply.Ok? ==> r.reply.body == NewTask(s.nextId, caller, now, body).value
  {
    match NewTask(s.nextId, caller, now, body)
    case None => Outcome(s, Err(400, Invalid))
    case Some(t) =>
      if !taskValid(t) then Outcome(s, Err(400, Invalid))
      else Outcome(s.(tasks := s.tasks + [t], nextId := s.nextId + 1), Ok(201, t))
  }

  /** `GET /tasks`: the caller's page of tasks; nothing changes. */
  function ListRoute(s: Store, caller: Id, token: Token, q: Query): (r: Outcome<seq<Task>>)
    requires Authenticated(s, caller, token)
    ensures r.store == s && r.reply.Ok? && r.reply.status == 200
    ensures r.reply.body == ListTasks(s.tasks, caller, q)
    ensures forall t :: t in r.reply.body ==> t in s.tasks && t.owner == caller
  {
    ListTasksIsWindow(s.tasks, caller, q);
    Outcome(s, Ok(200, ListTasks(s.tasks, caller, q)))
  }

  /** The caller owns a task with this `_id`. */
  predicate Owns(s: Store, caller: Id, id: Id) {
    exists k :: 0 <= k < |s.tasks| && s.tasks[k].id == id && s.tasks[k].owner == caller
  }

  /** `GET /tasks/:id`: the caller's task with that id, or 404. */
  function GetTask(s: Store, caller: Id, token: Token, id: Id): (r: Outcome<Task>)
    requires Authenticated(s, caller, token)
    ensures r.store == s
    ensures r.reply.Ok? <==> Owns(s, caller, id)
    ensures r.reply.Ok? ==> r.reply.status == 200 && r.reply.body in s.tasks
    ensures r.reply.Ok? ==> r.reply.body.id == id && r.reply.body.owner == caller
    ensures r.reply.Err? ==> r.reply == Err(404, NotFound(""))
  {
    match FindOwnedTask(s.tasks, id, caller)
    case None => Outcome(s, Err(404, NotFound("")))
    case Some(i) => Outcome(s, Ok(200, s.tasks[i]))
  }

  /** `task[key] = data[key]` for each key of a whitelisted body. A value of
      the wrong type is not assigned (Mongoose records a cast error instead). */
  function AssignTask(t: Task, body: Body): (r: Task)
    ensures r.(description := t.description, completed := t.completed) == t
    ensures "description" in body && body["description"].JString? ==> r.description == body["description"].s
    ensures "completed" in body && body["completed"].JBool? ==> r.completed == body["completed"].b
    ensures !("description" in body && body["description"].JString?) ==> r.description == t.description
    ensures !("completed" in body && body["completed"].JBool?) ==> r.completed == t.completed
  {
    t.(
      description := if "description" in body && body["description"].JString? then body["description"].s else t.description,
      completed := if "completed" in body && body["completed"].JBool? then body["completed"].b else t.completed)
  }

  /** `PATCH /tasks/:id`. Checks in order: a JSON body, then the whitelist,
      then ownership. The reply is the updated document; `task.save()` is not
      awaited, so the store takes it when every value cast and it passes the
      task schema's validation (`taskValid`), and keeps the old document
      otherwise, while the reply is 200 either way. */
  function PatchTask(s: Store, caller: Id, token: Token, id: Id, isJson: bool, body: Body, taskValid: Task -> bool)
    : (r: Outcome<Task>)
    requires Authenticated(s, caller, token)
    ensures !isJson ==> r == Outcome(s, Err(400, NotJson))
    ensures isJson && !(body.Keys <= TaskUpdateKeys) ==> r == Outcome(s, Err(400, InvalidUpdates("Invalid updates!")))
    ensures isJson && body.Keys <= TaskUpdateKeys && !Owns(s, caller, id) ==>
      r == Outcome(s, Err(404, NotFound("task not found")))
    ensures r.reply.Ok? <==> isJson && body.Keys <= TaskUpdateKeys && Owns(s, caller, id)
    ensures r.reply.Ok? ==> r.reply.status == 200 && r.reply.body.id == id && r.reply.body.owner == caller
    ensures r.reply.Ok? ==> var i := FindOwnedTask(s.tasks, id, caller).value;
      && r.reply.body == AssignTask(s.tasks[i], body)
      && (TaskCasts(body) && taskValid(r.reply.body) ==> r.store.tasks == s.tasks[i := r.reply.body])
    ensures r.store.users == s.users && r.store.nextId == s.nextId && |r.store.tasks| == |s.tasks|
    ensures forall k :: 0 <= k < |s.tasks| && !(s.tasks[k].id == id && s.tasks[k].owner == caller) ==>
      r.store.tasks[k] == s.tasks[k]
    ensures r.reply.Ok? && TaskCasts(body) && taskValid(r.reply.body) ==> r.reply.body in r.store.tasks
    ensures r.reply.Ok? && !(TaskCasts(body) && taskValid(r.reply.body)) ==> r.store == s
  {
    if !isJson then Outcome(s, Err(400, NotJson))
    else if !(body.Keys <= TaskUpdateKeys) then Outcome(s, Err(400, InvalidUpdates("Invalid updates!")))
    else match FindOwnedTask(s.tasks, id, caller)
      case None => Outcome(s, Err(404, NotFound("task not found")))
      case Some(i) =>
        var t := AssignTask(s.tasks[i], body);
        var stored := TaskCasts(body) && taskValid(t);
        var saved := if stored then s.tasks[i := t] else s.tasks;
        assert stored ==> saved[i] == t;
        Outcome(s.(tasks := saved), Ok(200, t))
  }

  /** An empty patch body changes nothing and sends the task back as it was. */
  lemma EmptyPatchChangesNothing(s: Store, caller: Id, token: Token, id: Id, taskValid: Task -> bool)
    requires Authenticated(s, caller, token)
    requires Owns(s, caller, id)
    ensures var r := PatchTask(s, caller, token, id, true, map[], taskValid);
      r.store == s && r.reply.Ok? && r.reply.body in s.tasks
  {
    var i := FindOwnedTask(s.tasks, id, caller).value;
    assert s.tasks[i := s.tasks[i]] == s.tasks;
  }

  /** `DELETE /tasks/:id`: removes the caller's task with that id, or 404 by
      `sendStatus`, whose body is the status text. */
  function DeleteTask(s: Store, caller: Id, token: Token, id: Id): (r: Outcome<Task>)
    requires Authenticated(s, caller, token)
    ensures r.reply.Ok? <==> Owns(s, caller, id)
    ensures r.reply.Err? ==> r == Outcome(s, Err(404, NotFound("Not Found")))
    ensures r.reply.Ok? ==> r.reply.status == 200 && r.reply.body.id == id && r.reply.body.owner == caller
    ensures r.reply.Ok? ==> |r.store.tasks| == |s.tasks| - 1 && multiset(r.store.tasks) + multiset{r.reply.body} == multiset(s.tasks)
    ensures r.store.users == s.users && r.store.nextId == s.nextId
  {
    match FindOwnedTask(s.tasks, id, caller)
    case None => Outcome(s, Err(404, NotFound("Not Found")))
    case Some(i) =>
      var rest := Seqs.RemoveAt(s.tasks, i);
      assert s.tasks == s.tasks[..i] + [s.tasks[i]] + s.tasks[i + 1..];
      Outcome(s.(tasks := rest), Ok(200, s.tasks[i]))
  }

  /** With unique task ids, deleting removes exactly the caller's task with
      that id: every other task, the other users' included, remains. */
  lemma DeleteRemovesExactlyOne(s: Store, caller: Id, token: Token, id: Id)
    requires Valid(s) && Authenticated(s, caller, token)
    ensures forall t :: t in DeleteTask(s, caller, token, id).store.tasks <==>
      t in s.tasks && !(t.id == id && t.owner == caller)
  {
    if Owns(s, caller, id) {
      var i := FindOwnedTask(s.tasks, id, caller).value;
      assert DeleteTask(s, caller, token, id).store.tasks == Seqs.RemoveAt(s.tasks, i);
      forall t ensures t in Seqs.RemoveAt(s.tasks, i) <==> t in s.tasks && !(t.id == id && t.owner == caller) {
        Seqs.RemoveAtMembers(s.tasks, i, t);
        if j :| 0 <= j < |s.tasks| && j != i && s.tasks[j] == t {
          if j < i {
            assert s.tasks[j].id != s.tasks[i].id;
          } else {
            assert s.tasks[i].id != s.tasks[j].id;
          }
        }
      }
    }
  }

  /** A caller that does not own the task gets 404 from all three routes, and
      the store is left as it was. */
  lemma NonOwnerGetsNotFound(s: Store, caller: Id, token: Token, id: Id, body: Body, taskValid: Task -> bool)
    requires Authenticated(s, caller, token)
    requires !Owns(s, caller, id)
    requires body.Keys <= TaskUpdateKeys
    ensures GetTask(s, caller, token, id) == Outcome(s, Err(404, NotFound("")))
    ensures PatchTask(s, caller, token, id, true, body, taskValid) == Outcome(s, Err(404, NotFound("task not found")))
    ensures DeleteTask(s, caller, token, id) == Outcome(s, Err(404, NotFound("Not Found")))
  {
  }

  /** Creating a task keeps the store valid: a fresh id, and an owner that exists. */
  lemma CreateKeepsValid(s: Store, caller: Id, token: Token, body: Body, now: nat, taskValid: Task -> bool)
    requires Valid(s) && Authenticated(s, caller, token)
    ensures Valid(CreateTask(s, caller, token, body, now, taskValid).store)
  {
    var r := CreateTask(s, caller, token, body, now, taskValid);
    if r.reply.Ok? {
      var i := FindUser(s.users, caller).value;
      assert OwnerExists(s.users, r.reply.body) by {
        assert s.users[i].id == caller;
      }
      AppendTaskKeepsValid(s, r.reply.body);
    }
  }

  /** Patching keeps the store valid: ids and owners do not change. */
  lemma PatchKeepsValid(s: Store, caller: Id, token: Token, id: Id, isJson: bool, body: Body, taskValid: Task -> bool)
    requires Valid(s) && Authenticated(s, caller, token)
    ensures Valid(PatchTask(s, caller, token, id, isJson, body, taskValid).store)
  {
    var r := PatchTask(s, caller, token, id, isJson, body, taskValid);
    if r.reply.Ok? && TaskCasts(body) && taskValid(r.reply.body) {
      var i := FindOwnedTask(s.tasks, id, caller).value;
      var t := AssignTask(s.tasks[i], body);
      assert r.store == s.(tasks := s.tasks[i := t]);
      ReplaceTaskKeepsValid(s, i, t);
    }
  }

  /** Deleting a task keeps the store valid. */
  lemma DeleteKeepsValid(s: Store, caller: Id, token: Token, id: Id)
    requires Valid(s) && Authenticated(s, caller, token)
    ensures Valid(DeleteTask(s, caller, token, id).store)
  {
    if Owns(s, caller, id) {
      var i := FindOwnedTask(s.tasks, id, caller).value;
      assert DeleteTask(s, caller, token, id).store == s.(tasks := Seqs.RemoveAt(s.tasks, i));
      RemoveTaskKeepsValid(s, i);
    }
  }
}

=== FILE: text.dfy ===
/** The string operations the schema setters and the query builder rely on:
    JavaScript's `trim`, `toLowerCase` and `split`, and the binary string order
    MongoDB sorts text by. */
module Text {

  /** The code points JavaScript's `String.prototype.trim` strips: WhiteSpace and
      LineTerminator of ECMAScript (sections 12.2 and 12.3 of ECMA-262). */
  predicate IsSpace(c: char) {
    || c == '\t' || c == '\n' || c == '\U{000B}' || c == '\U{000C}' || c == '\r'
    || c == ' ' || c == '\U{00A0}' || c == '\U{1680}'
    || ('\U{2000}' <= c <= '\U{200A}')
    || c == '\U{2028}' || c == '\U{2029}' || c == '\U{202F}' || c == '\U{205F}'
    || c == '\U{3000}' || c == '\U{FEFF}'
  }

  /** The first index at or after `i` that holds no white space, or `|s|`. */
  function SkipSpace(s: string, i: nat): (n: nat)
    requires i <= |s|
    ensures i <= n <= |s|
    ensures forall k :: i <= k < n ==> IsSpace(s[k])
    ensures n == |s| || !IsSpace(s[n])
    decreases |s| - i
  {
    if i < |s| && IsSpace(s[i]) then SkipSpace(s, i + 1) else i
  }

  /** Scanning back from `j` towards `lo`: where the white space that ends
      `s[..j]` begins, but never before `lo`. */
  function BackSpace(s: string, lo: nat, j: nat): (n: nat)
    requires lo <= j <= |s|
    ensures lo <= n <= j
    ensures forall k :: n <= k < j ==> IsSpace(s[k])
    ensures n == lo || !IsSpace(s[n - 1])
    decreases j
  {
    if j > lo && IsSpace(s[j - 1]) then BackSpace(s, lo, j - 1) else j
  }

  /** Where the content of `s` starts. */
  function First(s: string): nat {
    SkipSpace(s, 0)
  }

  /** Where the content of `s` ends: the trailing white space begins here. */
  function Last(s: string): nat {
    BackSpace(s, First(s), |s|)
  }

  /** No white space at either end. */
  predicate Trimmed(s: string) {
    s == [] || (!IsSpace(s[0]) && !IsSpace(s[|s| - 1]))
  }

  /** JavaScript's `trim`: `s` with white space cut from both ends and nothing
      else changed. */
  function Trim(s: string): (r: string)
    ensures Trimmed(r)
    ensures First(s) + |r| <= |s| && r == s[First(s)..First(s) + |r|]
    ensures forall k :: 0 <= k < First(s) ==> IsSpace(s[k])
    ensures forall k :: First(s) + |r| <= k < |s| ==> IsSpace(s[k])
    ensures Trimmed(s) ==> r == s
  {
    var lo := First(s);
    var hi := Last(s);
    assert hi > lo ==> s[lo..hi][0] == s[lo] && s[lo..hi][hi - lo - 1] == s[hi - 1];
    assert Trimmed(s) && s != [] ==> lo == 0 && hi == |s|;
    s[lo..hi]
  }

  /** `Trim` keeps exactly the characters from `First` up to `Last`. */
  lemma TrimIsWindow(s: string)
    ensures First(s) <= Last(s) <= |s| && Trim(s) == s[First(s)..Last(s)]
  {
  }

  /** Trimming is idempotent. */
  lemma TrimIdempotent(s: string)
    ensures Trim(Trim(s)) == Trim(s)
  {
  }

  /** A string without white space is its own trim. */
  lemma TrimNoSpace(s: string)
    requires forall k :: 0 <= k < |s| ==> !IsSpace(s[k])
    ensures Trim(s) == s
  {
  }

  /** `toLowerCase` on one character; only the ASCII letters are mapped. */
  function LowerChar(c: char): (d: char)
    ensures 'A' <= c <= 'Z' ==> d as int == c as int + 32
    ensures !('A' <= c <= 'Z') ==> d == c
  {
    if 'A' <= c <= 'Z' then (c as int + 32) as char else c
  }

  /** `toLowerCase`, character by character. */
  function ToLower(s: string): (r: string)
    ensures |r| == |s|
    ensures forall k :: 0 <= k < |s| ==> r[k] == LowerChar(s[k])
  {
    seq(|s|, k requires 0 <= k < |s| => LowerChar(s[k]))
  }

  /** Lower-casing is idempotent. */
  lemma ToLowerIdempotent(s: string)
    ensures ToLower(ToLower(s)) == ToLower(s)
  {
  }

  /** Lower-casing maps white space to itself and nothing else to white space. */
  lemma LowerKeepsSpace(c: char)
    ensures IsSpace(LowerChar(c)) <==> IsSpace(c)
  {
  }

  /** The `email` path has both a `trim` and a `lowercase` setter; the order in
      which Mongoose applies them does not matter. */
  lemma TrimLowerCommute(s: string)
    ensures ToLower(Trim(s)) == Trim(ToLower(s))
  {
    LowerOfTrim(s);
    TrimOfLower(s);
  }

  /** Lower-casing the trimmed string lower-cases the same window. */
  lemma LowerOfTrim(s: string)
    ensures ToLower(Trim(s)) == ToLower(s)[First(s)..Last(s)]
  {
    TrimIsWindow(s);
    LowerSlice(s, First(s), Last(s));
  }

  /** Trimming the lower-cased string finds the same window. */
  lemma TrimOfLower(s: string)
    ensures First(s) <= Last(s) <= |s|
    ensures Trim(ToLower(s)) == ToLower(s)[First(s)..Last(s)]
  {
    var t := ToLower(s);
    SkipSpaceLower(s, 0);
    BackSpaceLower(s, First(s), |s|);
    TrimIsWindow(s);
    TrimIsWindow(t);
  }

  /** Lower-casing commutes with taking a slice. */
  lemma LowerSlice(s: string, i: nat, j: nat)
    requires i <= j <= |s|
    ensures ToLower(s[i..j]) == ToLower(s)[i..j]
  {
    var a := ToLower(s[i..j]);
    var b := ToLower(s)[i..j];
    forall k | 0 <= k < j - i ensures a[k] == b[k] {
      assert s[i..j][k] == s[i + k];
    }
    assert a == b;
  }

  /** Lower-casing does not move where the leading white space ends. */
  lemma {:induction false} SkipSpaceLower(s: string, i: nat)
    requires i <= |s|
    ensures SkipSpace(ToLower(s), i) == SkipSpace(s, i)
    decreases |s| - i
  {
    if i < |s| {
      LowerKeepsSpace(s[i]);
      SkipSpaceLower(s, i + 1);
    }
  }

  /** Lower-casing does not move where the trailing white space begins. */
  lemma {:induction false} BackSpaceLower(s: string, lo: nat, j: nat)
    requires lo <= j <= |s|
    ensures BackSpace(ToLower(s), lo, j) == BackSpace(s, lo, j)
    decreases j
  {
    if j > lo {
      LowerKeepsSpace(s[j - 1]);
      BackSpaceLower(s, lo, j - 1);
    }
  }

  /** Whether a code point lies above U+FFFF, where UTF-16 needs a surrogate pair. */
  predicate Astral(c: char) {
    c as int > 0xFFFF
  }

  /** JavaScript's `length`: the number of UTF-16 code units, so a code point
      above U+FFFF counts twice. */
  function Utf16Length(s: string): (n: nat)
    ensures |s| <= n <= 2 * |s|
    ensures (forall k :: 0 <= k < |s| ==> !Astral(s[k])) ==> n == |s|
    ensures (forall k :: 0 <= k < |s| ==> Astral(s[k])) ==> n == 2 * |s|
  {
    if s == [] then 0
    else
      var init := s[..|s| - 1];
      assert forall k :: 0 <= k < |init| ==> init[k] == s[k];
      Utf16Length(init) + (if Astral(s[|s| - 1]) then 2 else 1)
  }

  /** JavaScript's `s.split(sep)` for a one-character separator: the pieces
      between the separators, at least one. */
  function Split(s: string, sep: char): (parts: seq<string>)
    ensures |parts| >= 1
    ensures forall i :: 0 <= i < |parts| ==> sep !in parts[i]
  {
    if |s| == 0 then [""]
    else
      var rest := Split(s[1..], sep);
      if s[0] == sep then [""] + rest
      else [[s[0]] + rest[0]] + rest[1..]
  }

  /** The inverse of `Split`: the pieces glued back together with `sep`. */
  function Join(parts: seq<string>, sep: char): string
    requires |parts| >= 1
  {
    if |parts| == 1 then parts[0] else parts[0] + [sep] + Join(parts[1..], sep)
  }

  /** Splitting loses nothing: joining the pieces gives back the string. */
  lemma {:induction false} JoinSplit(s: string, sep: char)
    ensures Join(Split(s, sep), sep) == s
  {
    if |s| > 0 {
      var rest := Split(s[1..], sep);
      JoinSplit(s[1..], sep);
      if s[0] == sep {
        assert ([""] + rest)[1..] == rest;
      } else {
        var parts := [[s[0]] + rest[0]] + rest[1..];
        if |rest| > 1 {
          assert parts[1..] == rest[1..];
        }
      }
    }
  }

  /** A piece without the separator splits to itself. */
  lemma {:induction false} SplitPlain(p: string, sep: char)
    requires sep !in p
    ensures Split(p, sep) == [p]
  {
    if |p| > 0 {
      SplitPlain(p[1..], sep);
      assert [p[0]] + p[1..] == p;
    }
  }

  /** Splitting a piece, a separator and more text. */
  lemma {:induction false} SplitCons(p: string, sep: char, rest: string)
    requires sep !in p
    ensures Split(p + [sep] + rest, sep) == [p] + Split(rest, sep)
  {
    var s := p + [sep] + rest;
    if |p| == 0 {
      assert s[1..] == rest;
    } else {
      assert s[1..] == p[1..] + [sep] + rest;
      SplitCons(p[1..], sep, rest);
      assert [p[0]] + p[1..] == p;
    }
  }

  /** Joining separator-free pieces and splitting again gives back the pieces. */
  lemma {:induction false} SplitJoin(parts: seq<string>, sep: char)
    requires |parts| >= 1
    requires forall i :: 0 <= i < |parts| ==> sep !in parts[i]
    ensures Split(Join(parts, sep), sep) == parts
  {
    if |parts| == 1 {
      SplitPlain(parts[0], sep);
    } else {
      SplitJoin(parts[1..], sep);
      SplitCons(parts[0], sep, Join(parts[1..], sep));
    }
  }

  /** Binary (code point) order on strings, the order MongoDB sorts strings in
      without a collation. */
  predicate LexLe(a: string, b: string) {
    |a| == 0 || (|b| > 0 && (a[0] < b[0] || (a[0] == b[0] && LexLe(a[1..], b[1..]))))
  }

  lemma {:induction false} LexLeTotal(a: string, b: string)
    ensures LexLe(a, b) || LexLe(b, a)
  {
    if |a| > 0 && |b| > 0 && a[0] == b[0] {
      LexLeTotal(a[1..], b[1..]);
    }
  }

  lemma {:induction false} LexLeTransitive(a: string, b: string, c: string)
    requires LexLe(a, b) && LexLe(b, c)
    ensures LexLe(a, c)
  {
    if |a| > 0 && |b| > 0 && |c| > 0 && a[0] == b[0] == c[0] {
      LexLeTransitive(a[1..], b[1..], c[1..]);
    }
  }

  lemma {:induction false} LexLeAntisymmetric(a: string, b: string)
    requires LexLe(a, b) && LexLe(b, a)
    ensures a == b
  {
    if |a| > 0 && |b| > 0 {
      LexLeAntisymmetric(a[1..], b[1..]);
      assert a == [a[0]] + a[1..] && b == [b[0]] + b[1..];
    }
  }
}

=== FILE: user_model.dfy ===
/** The `User` model: the schema's setters and validators, the `toJSON`
    projection, `generateAuthToken`, `findByCredentials`, and the `save` and
    `remove` hooks (hash the password when it changed; delete the user's tasks). */
module UserModel {
  import opened Wrappers
  import opened Text
  import opened Records
  import Seqs

  /** The libraries the model treats as black boxes: bcrypt's salted `hash`
      (cost 8) and `compare`, and validator's `isEmail`. */
  datatype Services = Services(
    hash: string -> string,
    compare: (string, string) -> bool,
    isEmail: string -> bool)

  /** The `minLength` of the password path, in UTF-16 code units. */
  const MinPasswordLength: nat := 7

  /** The one password the custom validator refuses outright. */
  const ForbiddenPassword: string := "password"

  /** The age a new user gets when the body does not give one. */
  const DefaultAge: real := 0.0

  /** The keys `PATCH /users/me` accepts. */
  const UserUpdateKeys: set<string> := {"name", "email", "password", "age"}

  /** The `email` setters: trimmed, then lower-cased. */
  function NormalizeEmail(e: string): (r: string)
    ensures r == Trim(ToLower(e))
    ensures Trimmed(r) && ToLower(r) == r
  {
    TrimLowerCommute(e);
    ToLowerIdempotent(Trim(e));
    ToLower(Trim(e))
  }

  /** A stored email is its own normal form, so looking it up again finds it. */
  lemma NormalizeEmailIdempotent(e: string)
    ensures NormalizeEmail(NormalizeEmail(e)) == NormalizeEmail(e)
  {
  }

  /** Every schema path present in the body casts to the path's type:
      strings for name, email and password, a number for age. */
  predicate Casts(body: Body) {
    && ("name" in body ==> body["name"].JString?)
    && ("email" in body ==> body["email"].JString?)
    && ("password" in body ==> body["password"].JString?)
    && ("age" in body ==> body["age"].JNumber?)
  }

  /** Assigns the name, email, password and age paths a body lists
      (`user[key] = data[key]`, or the `new User(req.body)` constructor),
      through the setters: name and password are trimmed, email is trimmed and
      lower-cased. Every other key is ignored, the `tokens`, `avatar` and
      timestamp paths included. Fails when a value does not cast. */
  function Assign(u: User, body: Body): (r: Option<User>)
    ensures r.Some? <==> Casts(body)
    ensures r.Some? ==> r.value.(name := u.name, email := u.email, password := u.password, age := u.age) == u
    ensures r.Some? && "name" in body ==> r.value.name == Trim(body["name"].s) && Trimmed(r.value.name)
    ensures r.Some? && "email" in body ==> r.value.email == NormalizeEmail(body["email"].s)
    ensures r.Some? && "password" in body ==> r.value.password == Trim(body["password"].s)
    ensures r.Some? && "age" in body ==> r.value.age == body["age"].n
    ensures r.Some? && "name" !in body ==> r.value.name == u.name
    ensures r.Some? && "email" !in body ==> r.value.email == u.email
    ensures r.Some? && "password" !in body ==> r.value.password == u.password
    ensures r.Some? && "age" !in body ==> r.value.age == u.age
  {
    if !Casts(body) then None
    else Some(u.(
      name := if "name" in body then Trim(body["name"].s) else u.name,
      email := if "email" in body then NormalizeEmail(body["email"].s) else u.email,
      password := if "password" in body then Trim(body["password"].s) else u.password,
      age := if "age" in body then body["age"].n else u.age))
  }

  /** The password path's validators: `required`, `minLength: 7`, and the
      custom check that refuses the literal "password". */
  predicate ValidPassword(p: string) {
    Utf16Length(p) >= MinPasswordLength && p != ForbiddenPassword
  }

  /** `minLength` counts UTF-16 code units: four emoji (eight units) are a
      long enough password, six ASCII letters are not. */
  lemma PasswordLengthInUnits()
    ensures ValidPassword("\U{1F600}\U{1F600}\U{1F600}\U{1F600}")
    ensures !ValidPassword("secret")
  {
  }

  /** Schema validation of a document about to be saved: name and email are
      required, email must satisfy `isEmail`, age must not be negative, and the
      password rules apply to the plaintext, which is only present when the
      password path was modified. */
  predicate Validates(u: User, passwordModified: bool, isEmail: string -> bool) {
    && |u.name| > 0
    && |u.email| > 0 && isEmail(u.email)
    && (passwordModified ==> ValidPassword(u.password))
    && u.age >= DefaultAge
  }

  /** `isModified('password')`: always for a document never saved before,
      otherwise when the assigned value differs from the persisted digest. */
  predicate PasswordModified(prior: Option<User>, u: User) {
    prior.None? || u.password != prior.value.password
  }

  /** `user.save()` on the document `u` whose persisted version is `prior`:
      schema validation, then the pre-save hook that replaces a modified
      password by its bcrypt digest. `None` is a validation error. */
  function Save(prior: Option<User>, u: User, sv: Services): (r: Option<User>)
    ensures r.Some? <==> Validates(u, PasswordModified(prior, u), sv.isEmail)
    ensures r.Some? ==> r.value.(password := u.password) == u
    ensures r.Some? && PasswordModified(prior, u) ==> r.value.password == sv.hash(u.password)
    ensures r.Some? && !PasswordModified(prior, u) ==> r.value.password == prior.value.password
  {
    var modified := PasswordModified(prior, u);
    if !Validates(u, modified, sv.isEmail) then None
    else if modified then Some(u.(password := sv.hash(u.password)))
    else Some(u)
  }

  /** A saved document whose password was not touched keeps its digest, so a
      digest is never hashed a second time. */
  lemma SaveKeepsDigest(prior: User, u: User, sv: Services)
    requires u.password == prior.password
    requires Validates(u, false, sv.isEmail)
    ensures Save(Some(prior), u, sv) == Some(u)
  {
  }

  /** The literal "password" is refused whatever the other fields are. */
  lemma ForbiddenPasswordRejected(u: User, prior: Option<User>, sv: Services)
    requires u.password == ForbiddenPassword
    requires PasswordModified(prior, u)
    ensures Save(prior, u, sv).None?
  {
  }

  /** The document `new User(req.body)` builds before its first save: the
      body's name, email, password and age over empty strings and the default
      age, with no tokens and no avatar. The constructor would also take
      `tokens`, `avatar`, `createdAt` and `updatedAt` from the body; this model
      does not: its JSON has no arrays or binary data, and both timestamps are
      `now`. */
  function NewUser(id: Id, now: nat, body: Body): (r: Option<User>)
    ensures r.Some? <==> Casts(body)
    ensures r.Some? ==> r.value.id == id && r.value.tokens == [] && r.value.avatar.None?
    ensures r.Some? ==> r.value.createdAt == now && r.value.updatedAt == now
    ensures r.Some? && "name" in body ==> r.value.name == Trim(body["name"].s)
    ensures r.Some? && "email" in body ==> r.value.email == NormalizeEmail(body["email"].s)
    ensures r.Some? && "password" in body ==> r.value.password == Trim(body["password"].s)
    ensures r.Some? && "age" in body ==> r.value.age == body["age"].n
    ensures r.Some? && "name" !in body ==> r.value.name == ""
    ensures r.Some? && "email" !in body ==> r.value.email == ""
    ensures r.Some? && "password" !in body ==> r.value.password == ""
    ensures r.Some? && "age" !in body ==> r.value.age == DefaultAge
  {
    Assign(User(id, "", "", "", DefaultAge, [], None, now, now), body)
  }

  /** A body without a usable name, email or password never validates: a
      missing path is an empty string, which `required` refuses. */
  lemma MissingFieldRejected(id: Id, now: nat, body: Body, sv: Services)
    requires Casts(body)
    requires "name" !in body || "email" !in body || "password" !in body
    ensures Save(None, NewUser(id, now, body).value, sv).None?
  {
  }

  /** The public profile `toJSON` sends: `_id`, name, age, email and the two
      timestamps. */
  datatype Profile = Profile(id: Id, name: string, age: real, email: string, createdAt: nat, updatedAt: nat)

  function ToJson(u: User): Profile {
    Profile(u.id, u.name, u.age, u.email, u.createdAt, u.updatedAt)
  }

  /** Two documents agree on every field `toJSON` is meant to expose. */
  predicate SamePublicFields(u: User, v: User) {
    && u.id == v.id && u.name == v.name && u.age == v.age && u.email == v.email
    && u.createdAt == v.createdAt && u.updatedAt == v.updatedAt
  }

  /** `toJSON` exposes exactly the public fields: two documents have the same
      profile if and only if they agree on those fields, so the password
      digest, the tokens and the avatar cannot influence it. */
  lemma ToJsonExposesExactlyPublicFields(u: User, v: User)
    ensures ToJson(u) == ToJson(v) <==> SamePublicFields(u, v)
  {
  }

  /** The profile does not depend on the secret fields. */
  lemma ToJsonHidesSecrets(u: User, password: string, tokens: seq<Token>, avatar: Option<seq<byte>>)
    ensures ToJson(u.(password := password, tokens := tokens, avatar := avatar)) == ToJson(u)
  {
    ToJsonExposesExactlyPublicFields(u, u.(password := password, tokens := tokens, avatar := avatar));
  }

  /** `generateAuthToken`: appends the signed token after the existing ones. */
  function GenerateAuthToken(u: User, token: Token): (r: User)
    ensures |r.tokens| == |u.tokens| + 1
    ensures r.tokens[..|u.tokens|] == u.tokens && r.tokens[|u.tokens|] == token
    ensures r.(tokens := u.tokens) == u
  {
    u.(tokens := u.tokens + [token])
  }

  /** `User.findOne({email})`: Mongoose casts the query value through the
      path's setters, so this is the first user whose email is the given one
      trimmed and lower-cased. */
  function FindByEmail(users: seq<User>, email: string): (r: Option<nat>)
    ensures r.Some? ==> r.value < |users| && users[r.value].email == NormalizeEmail(email)
    ensures r.Some? ==> forall k :: 0 <= k < r.value ==> users[k].email != NormalizeEmail(email)
    ensures r.None? <==> forall k :: 0 <= k < |users| ==> users[k].email != NormalizeEmail(email)
  {
    var key := NormalizeEmail(email);
    Seqs.FirstIndex(users, (u: User) => u.email == key)
  }

  /** Looking up an email and looking up its normal form find the same user. */
  lemma FindByEmailNormal(users: seq<User>, email: string)
    ensures FindByEmail(users, NormalizeEmail(email)) == FindByEmail(users, email)
  {
    NormalizeEmailIdempotent(email);
  }

  /** `findByCredentials(email, password)`: the user with that email whose
      digest bcrypt accepts, or the message thrown. The two messages differ
      only in capitalisation. */
  function FindByCredentials(users: seq<User>, email: string, password: string, sv: Services): (r: Result<nat>)
    ensures r.Success? ==> r.value < |users| && users[r.value].email == NormalizeEmail(email)
    ensures r.Success? ==> sv.compare(password, users[r.value].password)
    ensures (forall k :: 0 <= k < |users| ==> users[k].email != NormalizeEmail(email)) <==> r == Failure("unable to login")
    ensures r.Failure? ==> r.message == "unable to login" || r.message == "Unable to login"
  {
    match FindByEmail(users, email)
    case None => Failure("unable to login")
    case Some(i) =>
      if sv.compare(password, users[i].password) then Success(i) else Failure("Unable to login")
  }

  /** The credential check sees only the normal form of the email. */
  lemma FindByCredentialsNormal(users: seq<User>, email: string, password: string, sv: Services)
    ensures FindByCredentials(users, NormalizeEmail(email), password, sv) == FindByCredentials(users, email, password, sv)
  {
    FindByEmailNormal(users, email);
  }

  /** With unique emails, login succeeds exactly when some user has the email
      (after the setters) and bcrypt accepts the password against that user's
      digest. */
  lemma {:induction false} CredentialsIff(users: seq<User>, email: string, password: string, sv: Services)
    requires forall i, j :: 0 <= i < j < |users| ==> users[i].email != users[j].email
    ensures FindByCredentials(users, email, password, sv).Success?
      <==> exists k :: 0 <= k < |users| && users[k].email == NormalizeEmail(email) && sv.compare(password, users[k].password)
  {
    var r := FindByCredentials(users, email, password, sv);
    if k :| 0 <= k < |users| && users[k].email == NormalizeEmail(email) && sv.compare(password, users[k].password) {
      var i := FindByEmail(users, email).value;
      assert i == k;
    }
  }

  /** The users that survive removing the user `id`. */
  function OtherUser(id: Id): User -> bool {
    (u: User) => u.id != id
  }

  /** The tasks that survive `Task.deleteMany({owner: id})`. */
  function NotOwnedBy(id: Id): Task -> bool {
    (t: Task) => t.owner != id
  }

  /** `user.remove()` with its pre-remove hook: `Task.deleteMany({owner})`,
      then the user document itself. */
  function RemoveUser(s: Store, id: Id): (r: Store)
    ensures forall t :: t in r.tasks <==> t in s.tasks && t.owner != id
    ensures forall u :: u in r.users <==> u in s.users && u.id != id
    ensures r.nextId == s.nextId
  {
    Store(
      Seqs.Filter(s.users, OtherUser(id)),
      Seqs.Filter(s.tasks, NotOwnedBy(id)),
      s.nextId)
  }

  /** Removal keeps the natural order: cutting either collection at any
      position, what remains of the part before the cut comes before what
      remains of the part after it. */
  lemma RemoveUserKeepsOrder(s: Store, id: Id, i: nat, j: nat)
    requires i <= |s.users| && j <= |s.tasks|
    ensures RemoveUser(s, id).users
      == RemoveUser(s.(users := s.users[..i]), id).users + RemoveUser(s.(users := s.users[i..]), id).users
    ensures RemoveUser(s, id).tasks
      == RemoveUser(s.(tasks := s.tasks[..j]), id).tasks + RemoveUser(s.(tasks := s.tasks[j..]), id).tasks
  {
    assert s.users == s.users[..i] + s.users[i..];
    assert s.tasks == s.tasks[..j] + s.tasks[j..];
    Seqs.FilterConcat(s.users[..i], s.users[i..], OtherUser(id));
    Seqs.FilterConcat(s.tasks[..j], s.tasks[j..], NotOwnedBy(id));
  }

  /** Removing a user with its tasks keeps the store valid: the remaining ids
      and emails stay distinct and every remaining task's owner remains. */
  lemma RemoveUserKeepsValid(s: Store, id: Id)
    requires Valid(s)
    ensures Valid(RemoveUser(s, id))
  {
    RemovedStayDistinct(s, id);
    RemovedOwnersRemain(s, id);
    var r := RemoveUser(s, id);
    forall k | 0 <= k < |r.users| ensures r.users[k].id < r.nextId {
      assert r.users[k] in s.users;
    }
    forall k | 0 <= k < |r.tasks| ensures r.tasks[k].id < r.nextId {
      assert r.tasks[k] in s.tasks;
    }
  }

  lemma RemovedStayDistinct(s: Store, id: Id)
    requires Valid(s)
    ensures var r := RemoveUser(s, id);
      && (forall i, j :: 0 <= i < j < |r.users| ==> r.users[i].id != r.users[j].id)
      && (forall i, j :: 0 <= i < j < |r.users| ==> r.users[i].email != r.users[j].email)
      && (forall i, j :: 0 <= i < j < |r.tasks| ==> r.tasks[i].id != r.tasks[j].id)
  {
    var keepUser := OtherUser(id);
    var keepTask := NotOwnedBy(id);
    Seqs.FilterPairwise(s.users, keepUser, (a: User, b: User) => a.id != b.id);
    Seqs.FilterPairwise(s.users, keepUser, (a: User, b: User) => a.email != b.email);
    Seqs.FilterPairwise(s.tasks, keepTask, (a: Task, b: Task) => a.id != b.id);
  }

  lemma RemovedOwnersRemain(s: Store, id: Id)
    requires forall k :: 0 <= k < |s.tasks| ==> OwnerExists(s.users, s.tasks[k])
    ensures var r := RemoveUser(s, id); forall k :: 0 <= k < |r.tasks| ==> OwnerExists(r.users, r.tasks[k])
  {
    var r := RemoveUser(s, id);
    forall k | 0 <= k < |r.tasks| ensures OwnerExists(r.users, r.tasks[k]) {
      var t := r.tasks[k];
      assert t in r.tasks;
      var j :| 0 <= j < |s.tasks| && s.tasks[j] == t;
      assert OwnerExists(s.users, s.tasks[j]);
      var m :| 0 <= m < |s.users| && s.users[m].id == t.owner;
      assert s.users[m] in r.users;
    }
  }
}

=== FILE: user_router.dfy ===
/** The user routes: sign-up and login, the two logouts, the profile reads,
    `PATCH` and `DELETE /users/me`, and the avatar upload, removal and read.
    A protected route acts on the caller's own document. */
module UserRouter {
  import opened Wrappers
  import opened Records
  import opened UserModel
  import opened ImageUtils
  import Seqs

  /** The body of a sign-up or login reply: `{user, token}`. */
  datatype Session = Session(user: Profile, token: Token)

  /** The position of the caller's document, which authentication guarantees. */
  function Account(s: Store, caller: Id, token: Token): (i: nat)
    requires Authenticated(s, caller, token)
    ensures i < |s.users| && s.users[i].id == caller && token in s.users[i].tokens
    ensures forall k :: 0 <= k < i ==> s.users[k].id != caller
  {
    FindUser(s.users, caller).value
  }

  /** Replacing the caller's document by `u` changes nothing else. */
  function Update(s: Store, i: nat, u: User): (r: Store)
    requires i < |s.users|
    ensures |r.users| == |s.users| && r.users[i] == u
    ensures forall k :: 0 <= k < |s.users| && k != i ==> r.users[k] == s.users[k]
    ensures r.tasks == s.tasks && r.nextId == s.nextId
  {
    s.(users := s.users[i := u])
  }

  /** `POST /users`: build the document from the body, save it (validation,
      hashing, the unique email index), then issue its first token. Any
      failure is a 400 that leaves the store as it was. */
  function Signup(s: Store, body: Body, token: Token, now: nat, sv: Services): (r: Outcome<Session>)
    ensures r.reply.Err? ==> r.reply.status == 400 && r.store == s
    ensures !Casts(body) ==> r == Outcome(s, Err(400, Invalid))
    ensures r.reply.Ok? ==> r.reply.status == 201 && r.reply.body.token == token
    ensures r.reply.Ok? ==> |r.store.users| == |s.users| + 1 && r.store.users[..|s.users|] == s.users
    ensures r.reply.Ok? ==> r.store.tasks == s.tasks && r.store.nextId == s.nextId + 1
    ensures r.reply.Ok? ==> var u := r.store.users[|s.users|];
      && Casts(body) && "password" in body
      && u == NewUser(s.nextId, now, body).value.(password := sv.hash(Text.Trim(body["password"].s)), tokens := [token])
    ensures r.reply.Ok? ==> var u := r.store.users[|s.users|];
      && u.id == s.nextId && u.tokens == [token] && u.avatar.None?
      && r.reply.body.user == ToJson(u)
      && "password" in body && ValidPassword(Text.Trim(body["password"].s))
      && u.password == sv.hash(Text.Trim(body["password"].s))
      && "email" in body && u.email == NormalizeEmail(body["email"].s) && sv.isEmail(u.email)
      && (forall k :: 0 <= k < |s.users| ==> s.users[k].email != u.email)
  {
    match NewUser(s.nextId, now, body)
    case None => Outcome(s, Err(400, Invalid))
    case Some(draft) =>
      match Save(None, draft, sv)
      case None => Outcome(s, Err(400, Invalid))
      case Some(saved) =>
        if exists k :: 0 <= k < |s.users| && s.users[k].email == saved.email then
          Outcome(s, Err(400, DuplicateEmail))
        else
          var u := GenerateAuthToken(saved, token);
          assert (s.users + [u])[..|s.users|] == s.users;
          Outcome(Store(s.users + [u], s.tasks, s.nextId + 1), Ok(201, Session(ToJson(u), token)))
  }

  /** A sign-up whose email some user already has fails with the duplicate
      key error. */
  lemma SignupRejectsTakenEmail(s: Store, body: Body, token: Token, now: nat, sv: Services, k: nat)
    requires k < |s.users|
    requires "email" in body && body["email"].JString?
    requires s.users[k].email == NormalizeEmail(body["email"].s)
    ensures Signup(s, body, token, now, sv).reply.Err?
  {
  }

  /** Signing up keeps the store valid: the new user's id is fresh and its
      email is not taken. */
  lemma SignupKeepsValid(s: Store, body: Body, token: Token, now: nat, sv: Services)
    requires Valid(s)
    ensures Valid(Signup(s, body, token, now, sv).store)
  {
    var r := Signup(s, body, token, now, sv);
    if r.reply.Ok? {
      var u := r.store.users[|s.users|];
      SignupAppends(s, body, token, now, sv);
      AppendUserKeepsValid(s, u);
    }
  }

  /** A successful sign-up appends one document with the fresh id and an
      email nobody had, and advances the id counter. */
  lemma SignupAppends(s: Store, body: Body, token: Token, now: nat, sv: Services)
    requires Signup(s, body, token, now, sv).reply.Ok?
    ensures var r := Signup(s, body, token, now, sv); var u := r.store.users[|s.users|];
      && r.store == Store(s.users + [u], s.tasks, s.nextId + 1)
      && u.id == s.nextId
      && forall k :: 0 <= k < |s.users| ==> s.users[k].email != u.email
  {
    var r := Signup(s, body, token, now, sv);
    assert r.store.users == s.users + [r.store.users[|s.users|]];
  }

  /** The documents a sign-up accepts: the body casts, the document built
      from it saves (it passes the schema's validators, see `Save`), and no
      user has the saved email. */
  predicate SignupAccepted(s: Store, body: Body, now: nat, sv: Services) {
    && Casts(body)
    && var saved := Save(None, NewUser(s.nextId, now, body).value, sv);
       && saved.Some?
       && forall k :: 0 <= k < |s.users| ==> s.users[k].email != saved.value.email
  }

  /** A sign-up succeeds exactly when its document is accepted. */
  lemma SignupSucceedsIff(s: Store, body: Body, token: Token, now: nat, sv: Services)
    ensures Signup(s, body, token, now, sv).reply.Ok? <==> SignupAccepted(s, body, now, sv)
  {
    if SignupAccepted(s, body, now, sv) {
      AcceptedSignupSucceeds(s, body, token, now, sv);
    }
  }

  /** An accepted sign-up gets its 201. */
  lemma AcceptedSignupSucceeds(s: Store, body: Body, token: Token, now: nat, sv: Services)
    requires SignupAccepted(s, body, now, sv)
    ensures Signup(s, body, token, now, sv).reply.Ok?
  {
  }

  /** A sign-up body the schema accepts, read off the body alone: every
      present path casts; the trimmed name is not blank; the normalised email
      is not blank, passes `isEmail` and belongs to nobody; the trimmed
      password is valid; and an age, when given, is not negative. */
  predicate ValidSignupBody(s: Store, body: Body, sv: Services) {
    && Casts(body)
    && "name" in body && |Text.Trim(body["name"].s)| > 0
    && "email" in body && |NormalizeEmail(body["email"].s)| > 0 && sv.isEmail(NormalizeEmail(body["email"].s))
    && "password" in body && ValidPassword(Text.Trim(body["password"].s))
    && ("age" in body ==> body["age"].n >= DefaultAge)
    && forall k :: 0 <= k < |s.users| ==> s.users[k].email != NormalizeEmail(body["email"].s)
  }

  /** The document-level acceptance condition is exactly the body-level one. */
  lemma AcceptedIffValidBody(s: Store, body: Body, now: nat, sv: Services)
    ensures SignupAccepted(s, body, now, sv) <==> ValidSignupBody(s, body, sv)
  {
    if Casts(body) {
      var draft := NewUser(s.nextId, now, body).value;
      assert Save(None, draft, sv).Some? <==> Validates(draft, true, sv.isEmail);
      if Save(None, draft, sv).Some? {
        assert Save(None, draft, sv).value.email == draft.email;
      }
    }
  }

  /** A sign-up succeeds exactly when its body is valid: the schema's rules
      and the unique email, stated over the request body. */
  lemma SignupSucceedsOnValidBody(s: Store, body: Body, token: Token, now: nat, sv: Services)
    ensures Signup(s, body, token, now, sv).reply.Ok? <==> ValidSignupBody(s, body, sv)
  {
    SignupSucceedsIff(s, body, token, now, sv);
    AcceptedIffValidBody(s, body, now, sv);
  }

  /** With a valid store, the token a successful sign-up issues authenticates
      the new user. */
  lemma SignupAuthenticates(s: Store, body: Body, token: Token, now: nat, sv: Services)
    requires Valid(s)
    requires Signup(s, body, token, now, sv).reply.Ok?
    ensures Authenticated(Signup(s, body, token, now, sv).store, s.nextId, token)
  {
    var r := Signup(s, body, token, now, sv);
    SignupKeepsValid(s, body, token, now, sv);
    UniqueIdFound(r.store.users, |s.users|);
  }

  /** `POST /users/login`: check the credentials, then append a new token to
      the user's list. A failure replies 400 with the thrown message. */
  function Login(s: Store, email: string, password: string, token: Token, sv: Services): (r: Outcome<Session>)
    ensures r.reply.Err? ==> r.store == s && r.reply.status == 400
    ensures r.reply.Err? ==> r.reply.failure == LoginFailed("unable to login") || r.reply.failure == LoginFailed("Unable to login")
    ensures (forall k :: 0 <= k < |s.users| ==> s.users[k].email != NormalizeEmail(email)) ==> r == Outcome(s, Err(400, LoginFailed("unable to login")))
    ensures r.reply.Ok? ==> r.reply.status == 200 && r.reply.body.token == token
    ensures r.reply.Ok? ==> exists i :: (0 <= i < |s.users| && s.users[i].email == NormalizeEmail(email)
      && sv.compare(password, s.users[i].password)
      && r.store == Update(s, i, s.users[i].(tokens := s.users[i].tokens + [token]))
      && r.reply.body.user == ToJson(s.users[i]))
  {
    match FindByCredentials(s.users, email, password, sv)
    case Failure(message) => Outcome(s, Err(400, LoginFailed(message)))
    case Success(i) =>
      var u := GenerateAuthToken(s.users[i], token);
      ToJsonHidesSecrets(s.users[i], u.password, u.tokens, u.avatar);
      Outcome(Update(s, i, u), Ok(200, Session(ToJson(u), token)))
  }

  /** With unique emails, login succeeds exactly when some user has that email
      (trimmed and lower-cased) and bcrypt accepts the password against its
      digest; the new token then authenticates that user. */
  lemma LoginIff(s: Store, email: string, password: string, token: Token, sv: Services)
    requires Valid(s)
    ensures Login(s, email, password, token, sv).reply.Ok? <==>
      exists k :: 0 <= k < |s.users| && s.users[k].email == NormalizeEmail(email) && sv.compare(password, s.users[k].password)
    ensures var r := Login(s, email, password, token, sv);
      r.reply.Ok? ==> exists k :: 0 <= k < |s.users| && s.users[k].email == NormalizeEmail(email) && Authenticated(r.store, s.users[k].id, token)
  {
    CredentialsIff(s.users, email, password, sv);
    var r := Login(s, email, password, token, sv);
    if r.reply.Ok? {
      var i := FindByCredentials(s.users, email, password, sv).value;
      assert r.store == Update(s, i, s.users[i].(tokens := s.users[i].tokens + [token]));
      NewTokenAuthenticates(s, i, token);
    }
  }

  /** With unique ids, a token appended to a user's list authenticates that user. */
  lemma NewTokenAuthenticates(s: Store, i: nat, token: Token)
    requires i < |s.users|
    requires forall a, b :: 0 <= a < b < |s.users| ==> s.users[a].id != s.users[b].id
    ensures Authenticated(Update(s, i, s.users[i].(tokens := s.users[i].tokens + [token])), s.users[i].id, token)
  {
    var t := Update(s, i, s.users[i].(tokens := s.users[i].tokens + [token]));
    assert token in t.users[i].tokens;
    UniqueIdFound(t.users, i);
  }

  /** With unique ids, `findById` finds the document at its own position. */
  lemma UniqueIdFound(users: seq<User>, i: nat)
    requires i < |users|
    requires forall a, b :: 0 <= a < b < |users| ==> users[a].id != users[b].id
    ensures FindUser(users, users[i].id) == Some(i)
  {
  }

  /** With unique emails, `findOne({email})` finds the document whose stored
      email is the normal form of the one given. */
  lemma UniqueEmailFound(users: seq<User>, i: nat, email: string)
    requires i < |users| && users[i].email == NormalizeEmail(email)
    requires forall a, b :: 0 <= a < b < |users| ==> users[a].email != users[b].email
    ensures FindByEmail(users, email) == Some(i)
  {
  }

  /** Login does not depend on the case or the surrounding white space of the
      email: it behaves as if the normalised email had been sent. */
  lemma LoginNormalisesEmail(s: Store, email: string, password: string, token: Token, sv: Services)
    ensures Login(s, email, password, token, sv) == Login(s, NormalizeEmail(email), password, token, sv)
  {
    FindByCredentialsNormal(s.users, email, password, sv);
  }

  /** A second login right after sign-up finds the sign-up token at index 0
      and its own token at index 1. */
  lemma SecondLoginTokenAtIndexOne(s: Store, s1: Store, body: Body, t0: Token, t1: Token, now: nat, password: string, sv: Services)
    requires Valid(s)
    requires Signup(s, body, t0, now, sv).reply.Ok? && Signup(s, body, t0, now, sv).store == s1
    requires Login(s1, s1.users[|s.users|].email, password, t1, sv).reply.Ok?
    ensures Login(s1, s1.users[|s.users|].email, password, t1, sv).store.users[|s.users|].tokens == [t0, t1]
  {
    SignupKeepsValid(s, body, t0, now, sv);
    var n := |s.users|;
    NormalizeEmailIdempotent(body["email"].s);
    UniqueEmailFound(s1.users, n, s1.users[n].email);
    assert s1.users[n].tokens == [t0];
  }

  /** Logging in keeps the store valid: only a token list changes. */
  lemma LoginKeepsValid(s: Store, email: string, password: string, token: Token, sv: Services)
    requires Valid(s)
    ensures Valid(Login(s, email, password, token, sv).store)
  {
    var r := Login(s, email, password, token, sv);
    if r.reply.Ok? {
      var i := FindByCredentials(s.users, email, password, sv).value;
      SameAccountKeepsValid(s, i, GenerateAuthToken(s.users[i], token));
    }
  }

  /** A new version of a document with the same id and email keeps the store valid. */
  lemma SameAccountKeepsValid(s: Store, i: nat, u: User)
    requires Valid(s) && i < |s.users|
    requires u.id == s.users[i].id && u.email == s.users[i].email
    ensures Valid(Update(s, i, u))
  {
    forall k | 0 <= k < |s.users| && k != i ensures s.users[k].email != u.email {
      if k < i {
        assert s.users[k].email != s.users[i].email;
      } else {
        assert s.users[i].email != s.users[k].email;
      }
    }
    ReplaceUserKeepsValid(s, i, u);
  }

  /** The logout filter's test `doc.token !== req.token`. */
  function Keeps(token: Token): Token -> bool {
    (t: Token) => t != token
  }

  /** `POST /users/logout`: drops the presented token from the caller's list,
      keeping the others in order. */
  function Logout(s: Store, caller: Id, token: Token): (r: Outcome<()>)
    requires Authenticated(s, caller, token)
    ensures r.reply == Ok(200, ())
    ensures |r.store.users| == |s.users|
    ensures var i := Account(s, caller, token);
      r.store.users[i].tokens == Seqs.Filter(s.users[i].tokens, Keeps(token))
    ensures var i := Account(s, caller, token);
      && r.store == Update(s, i, s.users[i].(tokens := r.store.users[i].tokens))
      && (forall t :: t in r.store.users[i].tokens <==> t in s.users[i].tokens && t != token)
      && |r.store.users[i].tokens| < |s.users[i].tokens|
    ensures !Authenticated(r.store, caller, token)
  {
    var i := Account(s, caller, token);
    var kept := Seqs.Filter(s.users[i].tokens, Keeps(token));
    Seqs.FilterShrinks(s.users[i].tokens, Keeps(token), token);
    Outcome(Update(s, i, s.users[i].(tokens := kept)), Ok(200, ()))
  }

  /** Logging out ends only the presented session: the caller's other tokens,
      and every other user's tokens, still authenticate. */
  lemma LogoutKeepsOtherSessions(s: Store, caller: Id, token: Token, other: Id, t: Token)
    requires Authenticated(s, caller, token)
    requires other != caller || t != token
    ensures Authenticated(Logout(s, caller, token).store, other, t) <==> Authenticated(s, other, t)
  {
    var r := Logout(s, caller, token);
    var i := Account(s, caller, token);
    SameIdsSameLookup(s.users, r.store.users, other);
  }

  /** Two user lists with the same ids at the same positions find the same
      position for every id. */
  lemma {:induction false} SameIdsSameLookup(a: seq<User>, b: seq<User>, id: Id)
    requires |a| == |b| && forall k :: 0 <= k < |a| ==> a[k].id == b[k].id
    ensures FindUser(a, id) == FindUser(b, id)
  {
    if |a| > 0 && a[0].id != id {
      SameIdsSameLookup(a[1..], b[1..], id);
    }
  }

  /** Logging out keeps the store valid. */
  lemma LogoutKeepsValid(s: Store, caller: Id, token: Token)
    requires Valid(s) && Authenticated(s, caller, token)
    ensures Valid(Logout(s, caller, token).store)
  {
    var i := Account(s, caller, token);
    SameAccountKeepsValid(s, i, Logout(s, caller, token).store.users[i]);
  }

  /** `POST /users/logoutAll`: empties the caller's token list. */
  function LogoutAll(s: Store, caller: Id, token: Token): (r: Outcome<()>)
    requires Authenticated(s, caller, token)
    ensures r.reply == Ok(200, ())
    ensures var i := Account(s, caller, token); r.store == Update(s, i, s.users[i].(tokens := []))
    ensures forall t :: !Authenticated(r.store, caller, t)
  {
    var i := Account(s, caller, token);
    Outcome(Update(s, i, s.users[i].(tokens := [])), Ok(200, ()))
  }

  /** Logging out everywhere keeps the store valid. */
  lemma LogoutAllKeepsValid(s: Store, caller: Id, token: Token)
    requires Valid(s) && Authenticated(s, caller, token)
    ensures Valid(LogoutAll(s, caller, token).store)
  {
    var i := Account(s, caller, token);
    SameAccountKeepsValid(s, i, s.users[i].(tokens := []));
  }

  /** `GET /users/me`: the caller's profile. */
  function Me(s: Store, caller: Id, token: Token): (r: Outcome<Profile>)
    requires Authenticated(s, caller, token)
    ensures r.store == s && r.reply.Ok? && r.reply.status == 200
    ensures r.reply.body.id == caller
    ensures exists k :: 0 <= k < |s.users| && s.users[k].id == caller && r.reply.body == ToJson(s.users[k])
  {
    var i := Account(s, caller, token);
    Outcome(s, Ok(200, ToJson(s.users[i])))
  }

  /** `GET /users` (no authentication): every user's profile, in natural order. */
  function ListUsers(s: Store): (r: Outcome<seq<Profile>>)
    ensures r.store == s && r.reply.Ok? && r.reply.status == 200
    ensures |r.reply.body| == |s.users|
    ensures forall k :: 0 <= k < |s.users| ==> r.reply.body[k] == ToJson(s.users[k])
  {
    Outcome(s, Ok(200, seq(|s.users|, k requires 0 <= k < |s.users| => ToJson(s.users[k]))))
  }

  /** With unique ids, the list of all users and the single-user route agree:
      the profile at each position of `GET /users` is what `GET /users/:id`
      sends for that user's id. */
  lemma ListUsersAgreesWithGetUser(s: Store, caller: Id, token: Token, k: nat)
    requires Valid(s) && Authenticated(s, caller, token)
    requires k < |s.users|
    ensures GetUser(s, caller, token, s.users[k].id).reply == Ok(200, ListUsers(s).reply.body[k])
  {
    UniqueIdFound(s.users, k);
  }

  /** With unique ids, each stored user appears in `GET /users` exactly once. */
  lemma ListUsersDistinct(s: Store)
    requires Valid(s)
    ensures forall a, b :: 0 <= a < b < |ListUsers(s).reply.body| ==>
      ListUsers(s).reply.body[a].id != ListUsers(s).reply.body[b].id
  {
  }

  /** `GET /users/:id`: the profile with that id, or 404. */
  function GetUser(s: Store, caller: Id, token: Token, id: Id): (r: Outcome<Profile>)
    requires Authenticated(s, caller, token)
    ensures r.store == s
    ensures r.reply.Ok? <==> exists k :: 0 <= k < |s.users| && s.users[k].id == id
    ensures r.reply.Ok? ==> r.reply.status == 200 && r.reply.body.id == id
    ensures r.reply.Ok? ==> r.reply.body == ToJson(s.users[FindUser(s.users, id).value])
    ensures r.reply.Err? ==> r.reply == Err(404, NotFound(""))
  {
    match FindUser(s.users, id)
    case None => Outcome(s, Err(404, NotFound("")))
    case Some(i) => Outcome(s, Ok(200, ToJson(s.users[i])))
  }

  /** Asking for one's own id gives the same reply as `GET /users/me`. */
  lemma GetUserSelfIsMe(s: Store, caller: Id, token: Token)
    requires Authenticated(s, caller, token)
    ensures GetUser(s, caller, token, caller) == Me(s, caller, token)
  {
  }

  /** `PATCH /users/me`. Checks in order: a JSON body, then the whitelist;
      then assigns the listed paths through the setters and saves, so the
      password is re-validated and re-hashed only when it changed, and an email
      another user has is a duplicate-key error. Every failure is a 400 that
      leaves the store as it was. */
  function PatchMe(s: Store, caller: Id, token: Token, isJson: bool, body: Body, sv: Services): (r: Outcome<Profile>)
    requires Authenticated(s, caller, token)
    ensures !isJson ==> r == Outcome(s, Err(400, NotJson))
    ensures isJson && !(body.Keys <= UserUpdateKeys) ==> r == Outcome(s, Err(400, InvalidUpdates("invalid updates!")))
    ensures r.reply.Err? ==> r.reply.status == 400 && r.store == s
    ensures r.reply.Ok? <==> (
      && isJson && body.Keys <= UserUpdateKeys && Casts(body)
      && var prior := s.users[Account(s, caller, token)];
         var draft := Assign(prior, body).value;
         && Validates(draft, PasswordModified(Some(prior), draft), sv.isEmail)
         && !EmailTaken(s.users, draft.email, caller))
    ensures |r.store.users| == |s.users|
    ensures r.reply.Ok? ==> var i := Account(s, caller, token); var u := r.store.users[i];
      && r.reply.status == 200 && r.reply.body == ToJson(u)
      && r.store == Update(s, i, u)
      && u.(name := s.users[i].name, email := s.users[i].email, password := s.users[i].password, age := s.users[i].age) == s.users[i]
      && ("name" in body ==> u.name == Text.Trim(body["name"].s))
      && ("email" in body ==> u.email == NormalizeEmail(body["email"].s))
      && ("age" in body ==> u.age == body["age"].n)
      && ("name" !in body ==> u.name == s.users[i].name)
      && ("email" !in body ==> u.email == s.users[i].email)
      && ("age" !in body ==> u.age == s.users[i].age)
      && (forall k :: 0 <= k < |s.users| && s.users[k].id != caller ==> s.users[k].email != u.email)
    ensures r.reply.Ok? && "password" in body && Text.Trim(body["password"].s) != s.users[Account(s, caller, token)].password ==>
      ValidPassword(Text.Trim(body["password"].s))
      && r.store.users[Account(s, caller, token)].password == sv.hash(Text.Trim(body["password"].s))
    ensures r.reply.Ok? && ("password" !in body || Text.Trim(body["password"].s) == s.users[Account(s, caller, token)].password) ==>
      r.store.users[Account(s, caller, token)].password == s.users[Account(s, caller, token)].password
  {
    if !isJson then Outcome(s, Err(400, NotJson))
    else if !(body.Keys <= UserUpdateKeys) then Outcome(s, Err(400, InvalidUpdates("invalid updates!")))
    else
      var i := Account(s, caller, token);
      var prior := s.users[i];
      match Assign(prior, body)
      case None => Outcome(s, Err(400, Invalid))
      case Some(draft) =>
        match Save(Some(prior), draft, sv)
        case None => Outcome(s, Err(400, Invalid))
        case Some(saved) =>
          if EmailTaken(s.users, saved.email, caller) then Outcome(s, Err(400, DuplicateEmail))
          else Outcome(Update(s, i, saved), Ok(200, ToJson(saved)))
  }

  /** Updating the profile keeps the store valid: the id is the same and the
      new email belongs to no other user. */
  lemma PatchMeKeepsValid(s: Store, caller: Id, token: Token, isJson: bool, body: Body, sv: Services)
    requires Valid(s) && Authenticated(s, caller, token)
    ensures Valid(PatchMe(s, caller, token, isJson, body, sv).store)
  {
    var r := PatchMe(s, caller, token, isJson, body, sv);
    if r.reply.Ok? {
      var i := Account(s, caller, token);
      var u := r.store.users[i];
      forall k | 0 <= k < |s.users| && k != i ensures s.users[k].email != u.email {
        if k < i {
          assert s.users[k].id != s.users[i].id;
        } else {
          assert s.users[i].id != s.users[k].id;
        }
      }
      ReplaceUserKeepsValid(s, i, u);
    }
  }

  /** `DELETE /users/me`: removes the caller's document and, by the pre-remove
      hook, every task the caller owns; replies with the removed profile. */
  function DeleteMe(s: Store, caller: Id, token: Token): (r: Outcome<Profile>)
    requires Authenticated(s, caller, token)
    ensures r.reply.Ok? && r.reply.status == 200 && r.reply.body.id == caller
    ensures r.reply.body == ToJson(s.users[Account(s, caller, token)]) && r.store == RemoveUser(s, caller)
    ensures forall t :: t in r.store.tasks <==> t in s.tasks && t.owner != caller
    ensures forall u :: u in r.store.users <==> u in s.users && u.id != caller
    ensures forall t :: !Authenticated(r.store, caller, t)
  {
    var i := Account(s, caller, token);
    var r := RemoveUser(s, caller);
    assert forall k :: 0 <= k < |r.users| ==> r.users[k].id != caller by {
      forall k | 0 <= k < |r.users| ensures r.users[k].id != caller {
        assert r.users[k] in r.users;
      }
    }
    Outcome(r, Ok(200, ToJson(s.users[i])))
  }

  /** Deleting the account keeps the store valid: the cascade leaves no task
      whose owner is gone. */
  lemma DeleteMeKeepsValid(s: Store, caller: Id, token: Token)
    requires Valid(s) && Authenticated(s, caller, token)
    ensures Valid(DeleteMe(s, caller, token).store)
  {
    assert DeleteMe(s, caller, token).store == RemoveUser(s, caller);
    RemoveUserKeepsValid(s, caller);
  }

  /** `POST /users/me/avatar`: the upload is scaled so its longer side is
      350 pixels and stored as the caller's avatar. Decoding and re-encoding
      are the parameter `render`, given the target dimensions. An upload so
      thin that a computed side is zero makes sharp reject the resize, and the
      route then never replies; that case is outside this function. */
  function UploadAvatar(s: Store, caller: Id, token: Token, width: int, height: int, render: Dimensions -> seq<byte>)
    : (r: Outcome<()>)
    requires Authenticated(s, caller, token)
    requires Resizable(width, height)
    ensures r.reply == Ok(200, ())
    ensures |r.store.users| == |s.users|
    ensures var i := Account(s, caller, token);
      && r.store == Update(s, i, s.users[i].(avatar := r.store.users[i].avatar))
      && r.store.users[i].avatar == Some(render(CalculateImageDimensions(width, height, AvatarMaxSize)))
      && exists d: Dimensions :: (0 < d.width <= AvatarMaxSize && 0 < d.height <= AvatarMaxSize
        && (d.width == AvatarMaxSize || d.height == AvatarMaxSize)
        && r.store.users[i].avatar.value == render(d))
  {
    var i := Account(s, caller, token);
    var d := CalculateImageDimensions(width, height, AvatarMaxSize);
    DimensionsBounded(width, height, AvatarMaxSize);
    Outcome(Update(s, i, s.users[i].(avatar := Some(render(d)))), Ok(200, ()))
  }

  /** `DELETE /users/me/avatar`: clears the caller's avatar. */
  function DeleteAvatar(s: Store, caller: Id, token: Token): (r: Outcome<()>)
    requires Authenticated(s, caller, token)
    ensures r.reply == Ok(200, ())
    ensures var i := Account(s, caller, token); r.store == Update(s, i, s.users[i].(avatar := None))
  {
    var i := Account(s, caller, token);
    Outcome(Update(s, i, s.users[i].(avatar := None)), Ok(200, ()))
  }

  /** `GET /users/:id/avatar` (no authentication): the stored image bytes, or
      404 when there is no such user or no avatar. */
  function GetAvatar(s: Store, id: Id): (r: Outcome<seq<byte>>)
    ensures r.store == s
    ensures r.reply.Ok? <==> FindUser(s.users, id).Some? && s.users[FindUser(s.users, id).value].avatar.Some?
    ensures r.reply.Ok? ==> r.reply == Ok(200, s.users[FindUser(s.users, id).value].avatar.value)
    ensures r.reply.Ok? ==> (r.reply.status == 200
      && exists k :: 0 <= k < |s.users| && s.users[k].id == id && s.users[k].avatar == Some(r.reply.body))
    ensures (forall k :: 0 <= k < |s.users| ==> s.users[k].id != id || s.users[k].avatar.None?) ==> r == Outcome(s, Err(404, NotFound("")))
    ensures r.reply.Err? ==> r.reply == Err(404, NotFound(""))
  {
    match FindUser(s.users, id)
    case None => Outcome(s, Err(404, NotFound("")))
    case Some(i) =>
      match s.users[i].avatar
      case None => Outcome(s, Err(404, NotFound("")))
      case Some(bytes) => Outcome(s, Ok(200, bytes))
  }

  /** Uploading then reading the caller's avatar gives back exactly the
      rendered image; after removing it the read is 404. */
  lemma AvatarRoundTrip(s: Store, caller: Id, token: Token, width: int, height: int, render: Dimensions -> seq<byte>)
    requires Authenticated(s, caller, token)
    requires Resizable(width, height)
    ensures var s1 := UploadAvatar(s, caller, token, width, height, render).store;
      GetAvatar(s1, caller).reply == Ok(200, s1.users[Account(s, caller, token)].avatar.value)
    ensures GetAvatar(DeleteAvatar(s, caller, token).store, caller).reply == Err(404, NotFound(""))
  {
    var i := Account(s, caller, token);
    var s1 := UploadAvatar(s, caller, token, width, height, render).store;
    SameIdsSameLookup(s.users, s1.users, caller);
    SameIdsSameLookup(s.users, DeleteAvatar(s, caller, token).store.users, caller);
  }

  /** The avatar routes keep the store valid. */
  lemma AvatarKeepsValid(s: Store, caller: Id, token: Token, width: int, height: int, render: Dimensions -> seq<byte>)
    requires Valid(s) && Authenticated(s, caller, token)
    requires Resizable(width, height)
    ensures Valid(UploadAvatar(s, caller, token, width, height, render).store)
    ensures Valid(DeleteAvatar(s, caller, token).store)
  {
    var i := Account(s, caller, token);
    SameAccountKeepsValid(s, i, UploadAvatar(s, caller, token, width, height, render).store.users[i]);
    SameAccountKeepsValid(s, i, s.users[i].(avatar := None));
  }
}

=== FILE: wrappers.dfy ===
/** Optional values and the outcome of a route handler. */
module Wrappers {

  /** A value that may be absent (a missing query parameter, a user without an avatar). */
  datatype Option<+T> = None | Some(value: T)

  /** Why a handler refused a request. Each kind corresponds to one way the
      routers answer with an error. */
  datatype Failure =
    | NotJson                         // `sendStatus(400)`: the body is the status text "Bad Request"
    | InvalidUpdates(message: string) // a body key outside the update whitelist
    | Invalid                         // a cast or schema validation failure on save
    | DuplicateEmail                  // the unique index on `email` refused the save
    | LoginFailed(message: string)    // thrown by `findByCredentials`
    | NotFound(message: string)       // no such record for this caller: "" for an empty body,
                                      // "Not Found" for `sendStatus(404)`

  /** A handler's reply: an HTTP status with a body, or an HTTP status with the failure. */
  datatype Reply<+T> = Ok(status: int, body: T) | Err(status: int, failure: Failure)

  /** The lookup or credential check of a model method: a value, or the message it throws. */
  datatype Result<+T> = Success(value: T) | Failure(message: string)
}
